=== FILE: README.md ===
# Blog backend: post lifecycle, read paths and account tokens in Dafny

This project models the core of a blog backend. The backend is an Express and
Mongoose service. Posts move between `draft`, `scheduled` and `published`.
A periodic publish tick releases scheduled posts whose time has come. Authors
and admins create, edit, publish and delete posts. Readers page through
published posts, open one by slug, search, and load a home page. Alongside
these sit the reading-time calculator, bearer-token authentication with a role
check, three admin handlers, and the password-reset token lifecycle.

The model is functional:

- The post collection is a `seq<Post>` in natural order. `findOne` and
  `findById` return the first match in that order.
- Every handler is a pure function or a short method. It maps the store and
  the request to a `Result`. The error cases are 422, 404, 403, 401 and 400.
- Library and database services are function-typed parameters:
  - `slugify`, `sanitize-html`, `new Date(string)` and zod's `.url()` / `.email()` checks;
  - JWT verification, SHA-256 and bcrypt;
  - MongoDB `$text` matching and its relevance score, and the `RegExp` filter of `listUsers`.
- The clock is a `now: Millis` argument. A missing `publishedAt` sorts below every date, as in MongoDB.

| file | module | models |
|---|---|---|
| domain.dfy | `Domain` | posts, users, error codes, lookups by id and email |
| sorting.dfy | `Sorting` | `.sort(...)` as a stable sort on a descending key, and `.sort().limit(k)` |
| paging.dfy | `Paging` | filters, `countDocuments`, page/limit clamping, `.skip().limit()` |
| order.dfy | `PostOrder` | the `publishedAt`, `isFeatured`+`publishedAt` and `trendScore` orders |
| slugs.dfy | `Slugs` | the `base`, `base-1`, `base-2`, ... slug probe |
| publisher.dfy | `Publisher` | `runPublishTick` |
| readtime.dfy | `ReadTime` | `extractPlainText` and `computeReadTimeMinutesFromHtml` |
| auth.dfy | `Auth` | bearer extraction in `authMiddleware`, and `requireRole` |
| posts.dfy | `Posts` | `listPosts`, `getBySlug`, `createPost`, `updatePost`, `deletePost`, `publishPost` |
| home.dfy | `Home` | the four `home` queries |
| user_posts.dfy | `UserPosts` | `listUserPosts` |
| search.dfy | `Search` | `search` |
| admin.dfy | `Admin` | `listUsers`, `updateUser`, `toggleFeatured` |
| password.dfy | `Password` | `forgotPassword` and `resetPassword` |

## Behaviour worth knowing

The model follows the code in each of these cases.

- `publishPost` sets `publishedAt` to now only when it is unset. An existing future date is kept (src/controllers/post.controller.js:170).
- Create and update accept only `draft` and `published` (src/controllers/post.controller.js:76). No handler shown produces `scheduled`. There is no rule that turns a schedule in the past into "publish now".
- The public list filters test `status` only, never `publishedAt <= now`. `getBySlug` has no status filter at all.
- A save that throws inside the publish tick ends the tick (src/jobs/publisher.js:13). The posts saved before it stay published, and the rest of the batch is not attempted. There is no per-post isolation.
- Nothing retries a slug that became taken between the probe and the insert.
- `updatePost` recomputes the reading time from new content but not the `summary`.
- `createPost` does not store the `tags` it validates.
- `listPosts` counts `total` without the `$text` clause it applies to the data (src/controllers/post.controller.js:35).

## Model

| member | source | states |
|---|---|---|
| Domain.FindPost | src/controllers/post.controller.js:119 | `findById` finds the first post with the id, and none exactly when no post has it |
| Domain.FindUserByEmail | src/controllers/password.controller.js:13 | `findOne({ email })` finds the first user with that exact email, and none exactly when no user has it |
| Paging.ClampPage | src/controllers/post.controller.js:20 | the page is at least 1, defaults to 1, and a requested page of 1 or more is kept |
| Paging.ClampLimit | src/controllers/post.controller.js:21 | the limit lies between 1 and the cap, defaults to the given default, and a request inside the range is kept |
| Paging.SortedPage | src/controllers/post.controller.js:34 | one page of a sorted result is the run of the sorted matches that starts at position `(page - 1) * limit`: `limit` items, fewer on the last page, none past the end; all from the input, in descending key order |
| Paging.PagesRanked | src/controllers/post.controller.js:34 | every item on an earlier page ranks at least as high as every item on a later page |
| Paging.EveryItemOnSomePage | src/controllers/post.controller.js:34 | paging with a fixed limit reaches every item on some page of number 1 or more |
| Paging.CountMonotone | src/controllers/admin.controller.js:17 | a stricter filter never counts more documents |
| Sorting.SortDesc | src/controllers/post.controller.js:26-28 | sorting yields a permutation of the input in descending key order |
| Sorting.TopBy | src/controllers/home.controller.js:7 | `.sort().limit(k)` keeps `min(k, n)` items from the input, sorted, and every item left out ranks no higher than any kept one |
| PostOrder.DateKeyOrder | src/controllers/post.controller.js:26 | the date key orders dated posts by `publishedAt` and puts undated posts below all dated ones |
| PostOrder.FeaturedKeyOrder | src/controllers/post.controller.js:27 | the featured order puts every featured post above every unfeatured one, then orders by `publishedAt` |
| Slugs.NatToStringInjective | src/controllers/post.controller.js:88 | distinct counters print as distinct decimal strings |
| Slugs.CandidatesDistinct | src/controllers/post.controller.js:88 | the probed candidates `base-n` are pairwise distinct and differ from `base`, so each probe step tries a new slug |
| Slugs.OwnSlugNotTaken | src/controllers/post.controller.js:137 | with the post's own id excluded, a slug that only the post itself holds does not count as taken |
| Slugs.AllocateSlug | src/controllers/post.controller.js:83-89 | the probe ends with a slug no other post holds: `base` when free, otherwise `base-n` for the least free `n >= 1` |
| Slugs.FirstFreeUnique | src/controllers/post.controller.js:87-88 | the probe's answer is determined by the store: two slugs that both meet its postcondition are equal |
| Slugs.SecondCandidate | src/controllers/post.controller.js:87-88 | when `base` is held and `base-1` is free, the probe answers `base-1` |
| Publisher.Batch | src/jobs/publisher.js:7 | the batch holds, in store order, exactly the scheduled posts with `publishedAt <= now` that have fewer than 50 due posts before them |
| Publisher.SelectDue | src/jobs/publisher.js:7 | a scan of the store collects exactly the batch the query returns |
| Publisher.MarkPublished | src/jobs/publisher.js:11-12 | the post becomes published, its `publishedAt` is kept when set and becomes now when unset, and nothing else changes |
| Publisher.MarkPublishedIdempotent | src/controllers/post.controller.js:169-170 | publishing an already published post again changes nothing, whatever the clock says |
| Publisher.Tick | src/jobs/publisher.js:5-17 | the tick completes exactly when no post of the batch fails to save, and then reports the batch size; an aborted tick stops at the first failing post, every batch post before it passing; the batch posts before the stop are published, the rest of the batch and every post outside it are unchanged |
| Publisher.RunPublishTick | src/jobs/publisher.js:5-17 | the query, the early return and the save loop together give the tick's store and outcome |
| Publisher.TickChangesExactlySaved | src/jobs/publisher.js:10-16 | the number of posts the tick changes equals the count it reports, or the number saved before an abort |
| Publisher.TickTouchesOnlyBatch | src/jobs/publisher.js:7-15 | a post that is not scheduled, is due later than now, or sits behind 50 earlier due posts is left untouched |
| Publisher.TickTouchesOnlyBatchContra | src/jobs/publisher.js:7-15 | every post the tick changes was due before it and is no longer due after it |
| Publisher.TickKeepsPublishedAt | src/jobs/publisher.js:12 | no tick rewrites any post's `publishedAt`, because the query only selects posts that have one |
| Publisher.TickPublishesBatch | src/jobs/publisher.js:7-16 | with no failing save, every selected post ends published, including one due exactly at now, and the count is `min(due, 50)` |
| Publisher.TickPublishesBatchAny | src/jobs/publisher.js:10-16 | a tick that completes reports `min(due, 50)` |
| Publisher.TickIdleWhenNothingDue | src/jobs/publisher.js:8 | with nothing due, the tick returns `{ published: 0 }` and the store is unchanged |
| Publisher.TickAbortKeepsEarlierSaves | src/jobs/publisher.js:13 | when a save throws, the earlier posts of the batch stay published and the failing post is unchanged |
| Publisher.TickDrainsBacklog | src/jobs/publisher.js:7-8 | each tick lowers the due count by the number saved; a tick that publishes fewer than 50 leaves nothing due, so the next tick returns 0 and changes nothing |
| ReadTime.ReplaceTagsLeavesNoTag | src/utils/readtime.js:3 | replacing `<[^>]+>` leaves no tag in the text |
| ReadTime.CollapseSpacesCollapses | src/utils/readtime.js:3 | after `\s+` becomes one space, no two whitespace characters are adjacent |
| ReadTime.ExtractPlainText | src/utils/readtime.js:1-4 | null or empty HTML gives `""`; text with no `<`, `&` or whitespace comes back unchanged; any other result is trimmed, has single spaces only, and holds no tag and no `&nbsp;` |
| ReadTime.TagBetweenWords | src/utils/readtime.js:3 | a tag between two words becomes one space: `w1<x>w2` reads `w1 w2`, not `w1w2` |
| ReadTime.NbspBetweenWords | src/utils/readtime.js:3 | `&nbsp;` between two words becomes one space |
| ReadTime.ReplaceTagsCopies | src/utils/readtime.js:3 | the tag replacement copies text without `<` unchanged |
| ReadTime.ReplaceNbspLeavesNone | src/utils/readtime.js:3 | after replacing `&nbsp;`, no `&nbsp;` remains |
| ReadTime.ReplaceNbspCopies | src/utils/readtime.js:3 | the `&nbsp;` replacement copies text without `&` unchanged |
| ReadTime.CollapseSpaces | src/utils/readtime.js:3 | the `\s+` replacement is empty only for empty input and keeps whether the text starts with whitespace, and with what character otherwise |
| ReadTime.CollapseSpacesCopies | src/utils/readtime.js:3 | the `\s+` replacement copies text without whitespace unchanged |
| ReadTime.Trim | src/utils/readtime.js:3 | `trim` keeps the contiguous piece of the input that starts right after its leading whitespace and neither starts nor ends with whitespace |
| ReadTime.TrimCutsOnlyWhitespace | src/utils/readtime.js:3 | everything `trim` cuts after the piece it keeps is whitespace, so `trim` removes whitespace only, and only at the two ends |
| ReadTime.WordCount | src/utils/readtime.js:9 | empty text has 0 words; normalized non-empty text has exactly one word more than it has spaces |
| ReadTime.MinutesForWords | src/utils/readtime.js:10 | the minutes are the ceiling of words over `max(100, wpm)`, at least 1 (exactly 1 for no words), and at most the word count |
| ReadTime.MinutesMonotone | src/utils/readtime.js:10 | more words never give fewer minutes at the same speed |
| ReadTime.ReadTimeMinutes | src/utils/readtime.js:6-12 | the result is 0 exactly when the extracted text is empty; otherwise it lies between 1 and the word count and is the ceiling above |
| ReadTime.DefaultReadTime | src/utils/readtime.js:6 | at the default 200 words a minute, the result is the least number of minutes that covers the words |
| Auth.BearerToken | src/security/auth.js:24-25 | a token exists exactly when the header starts with the case-sensitive `Bearer `, and the header is that prefix followed by the token |
| Auth.BearerTokenRoundTrip | src/security/auth.js:25 | extracting from `Bearer ` + token gives the token back |
| Auth.Authenticate | src/security/auth.js:23-34 | no token, including an empty one, is 401 "Missing token"; a failed verification is 401 "Invalid token"; otherwise the handler runs with the decoded payload of that header's token |
| Auth.AuthenticateAccepts | src/security/auth.js:27-30 | a non-empty token that verifies lets the request through with its payload |
| Auth.NoBearerTokenRejected | src/security/auth.js:24-26 | an absent header, a bare `Bearer ` or a header without the prefix never reaches a handler |
| Auth.RequireRole | src/security/auth.js:36-43 | every refusal is 403 |
| Auth.RequireRoleAdmits | src/security/auth.js:38 | a request passes exactly when a user is present whose role is the required one or `admin`; `requireRole('admin')` admits admins only |
| Auth.AdminPassesEveryCheck | src/security/auth.js:38 | an admin passes every role check |
| Posts.ParseStatus | src/controllers/post.controller.js:76 | only `draft` and `published` are accepted, so this path never yields `scheduled` |
| Posts.DateField | src/controllers/post.controller.js:132 | an empty date string clears the date, and any other string gives a date |
| Posts.Summary | src/controllers/post.controller.js:96 | the summary has at most 250 characters, holds no tag, and is a prefix of the tag-stripped content, or all of it when shorter |
| Posts.CanModifyExactly | src/controllers/post.controller.js:121 | an admin may modify any post; anyone else may modify exactly the posts they wrote |
| Posts.CreatePost | src/controllers/post.controller.js:80-111 | invalid input is 422; otherwise one post is appended with a fresh id, the caller as author, sanitized content, its reading time and summary, and the status asked for (draft by default); its slug is the probe's answer, so slugs and ids stay unique |
| Posts.MergeFields | src/controllers/post.controller.js:122-132 | a supplied title, subtitle, banner, image list and category is written and an absent one kept; supplied content is stored sanitized with its reading time recomputed; status changes only when supplied and never to `scheduled` unless it already was; `publishedAt: ""` clears the date and any other string sets the parsed date |
| Posts.MergeNothingIsIdentity | src/controllers/post.controller.js:122-132 | an update that supplies nothing leaves the post as it was |
| Posts.MergeIdempotent | src/controllers/post.controller.js:122-132 | applying the same update twice gives the same post as applying it once |
| Posts.Authorize | src/controllers/post.controller.js:119-121 | a missing post is 404 before the 403 author-or-admin check; a pass yields the post's index |
| Posts.UpdatePost | src/controllers/post.controller.js:115-148 | invalid input is 422, then 404 or 403; success replaces only that post with the merged fields; the slug is re-probed, excluding the post itself, only when a title is supplied; slugs and ids stay unique |
| Posts.DeletePost | src/controllers/post.controller.js:150-161 | after the same guard, exactly one post is removed, every other post stays in its order, and with unique ids none with that id remains |
| Posts.PublishPost | src/controllers/post.controller.js:163-176 | after the same guard, the post becomes published, keeps any existing `publishedAt` even a future one, gets now only when it had none, and nothing else changes |
| Posts.GuardFailureChangesNothing | src/controllers/post.controller.js:150-176 | a caller who is neither the author nor an admin, or a missing id, makes delete and publish fail |
| Posts.ParseSort | src/controllers/post.controller.js:13 | only `latest`, `featured` and `trending` are accepted (422 otherwise), and an absent sort means latest |
| Posts.Matches | src/controllers/post.controller.js:22-32 | the data query keeps exactly the published posts that match the category, tag, author and, when given, the text search |
| Posts.ListPosts | src/controllers/post.controller.js:17-42 | a bad sort is 422; otherwise page and limit are clamped (page at least 1, default 1; limit in 1..50, default 10, an in-range request kept); the data is the run of the sorted matches starting at `(page - 1) * limit`, of length `limit` or less on the last page; `total` counts the filter without the text search |
| Posts.ListPostsReachesEveryMatch | src/controllers/post.controller.js:33-34 | every post that matches the query appears on some page |
| Posts.ListPostsPageWithinTotal | src/controllers/post.controller.js:33-35 | a page never holds more posts than the reported total |
| Posts.FindBySlug | src/controllers/post.controller.js:47 | the slug lookup ignores status and finds the first post with that slug, or none exactly when no post has it |
| Posts.First | src/controllers/post.controller.js:52-57 | `findOne` after a sort gives nothing for an empty match and otherwise a match that ranks at least as high as every other |
| Posts.GetBySlug | src/controllers/post.controller.js:44-51 | an unknown slug is 404; otherwise the post's views go up by exactly 1 and nothing else in the store changes |
| Posts.PreviousIsNearestEarlier | src/controllers/post.controller.js:52-54 | `previous` is absent exactly when no published post is strictly earlier; otherwise it is the latest such post |
| Posts.NextIsNearestLater | src/controllers/post.controller.js:55-57 | `next` is absent exactly when no published post is strictly later; otherwise it is the earliest such post |
| Posts.ReadNextSelection | src/controllers/post.controller.js:58-61 | `readNext` holds `min(5, related)` published posts of the same category, never the post itself, by descending trend score, and no related post left out outranks one kept |
| Home.Top | src/controllers/home.controller.js:6-8 | each home list keeps `min(k, matches)` matching posts, sorted, and no match left out outranks one kept |
| Home.FeaturedPosts | src/controllers/home.controller.js:6 | exactly `min(6, n)` featured published posts, n being how many there are, newest first, and no featured post left out is newer than one kept |
| Home.TrendingPosts | src/controllers/home.controller.js:7 | exactly `min(6, n)` published posts, n being how many there are, by descending trend score, and none left out scores higher than one kept |
| Home.RecentPosts | src/controllers/home.controller.js:8 | exactly `min(6, n)` published posts, n being how many there are, newest first, and none left out is newer than one kept |
| Home.RecentListsAllWhenFew | src/controllers/home.controller.js:8 | with 6 or fewer published posts, the recent list holds all of them |
| Home.PublishedAuthors | src/controllers/home.controller.js:10-11 | the grouped authors are distinct and are exactly the authors of published posts |
| Home.Groups | src/controllers/home.controller.js:10-11 | the group stage gives one entry per author of a published post, counting that author's published posts |
| Home.TopAuthors | src/controllers/home.controller.js:9-14 | at most 5 entries, `min(5, authors)` of them, each counting its author's published posts (at least 1), by descending count |
| Home.TopAuthorsDistinct | src/controllers/home.controller.js:11 | no author appears twice among the top authors |
| Home.TopAuthorsLeftOut | src/controllers/home.controller.js:12-13 | an author left out has no more published posts than any author listed |
| Home.TopAuthorsCompleteWhenFew | src/controllers/home.controller.js:13 | with 5 or fewer authors, every author of a published post is listed |
| Home.GetHome | src/controllers/home.controller.js:3-20 | the home page is the four independent queries: each list holds `min(6, matching posts)` published posts, featured ones in the featured list, and `min(5, authors)` top authors |
| UserPosts.ListUserPosts | src/controllers/user.controller.js:6-22 | page and limit are clamped (page default 1; limit default 10, at most 50, an in-range request kept); the data is the run of the user's published posts, newest first, starting at `(page - 1) * limit`; `total` counts the same filter |
| UserPosts.TotalIgnoresPaging | src/controllers/user.controller.js:15 | `total` does not depend on the page or the limit asked for |
| UserPosts.ListUserPostsReachesEvery | src/controllers/user.controller.js:14 | every published post by the user appears on some page |
| Search.Search | src/controllers/search.controller.js:6-25 | a missing or empty `q` is 422; otherwise page and limit are clamped (page default 1 and a requested page of 1 or more kept; limit default 10, at most 50, an in-range request kept); the data is the run of published text matches by descending score starting at `(page - 1) * limit`; `total` counts exactly the same filter |
| Search.SearchReachesEveryHit | src/controllers/search.controller.js:14-15 | every published post that matches appears on some page |
| Admin.ListUsers | src/controllers/admin.controller.js:7-24 | page defaults to 1 and a requested page of 1 or more is kept; the limit defaults to 20 and lies in 1..100; the data is the run of matching users, newest account first, starting at `(page - 1) * limit`; `total` counts the same filter |
| Admin.ListUsersRoleFilter | src/controllers/admin.controller.js:13 | with a role given, every listed user has exactly that role, and `total` is at most the number of users with that role |
| Admin.UpdateUser | src/controllers/admin.controller.js:28-40 | a role other than `admin` or `user` is 422 before the lookup; a missing user is 404; otherwise only that user's role changes, and only when supplied |
| Admin.UpdateUserIdempotent | src/controllers/admin.controller.js:33 | repeating the same role update changes nothing more |
| Admin.ToggleFeatured | src/controllers/admin.controller.js:49-61 | a missing boolean is 422; a missing post is 404; otherwise only that post's `isFeatured` takes the given value |
| Admin.ToggleFeaturedIdempotent | src/controllers/admin.controller.js:54 | setting the flag twice equals setting it once |
| Password.ForgotPassword | src/controllers/password.controller.js:10-27 | a bad email is 422; an unknown email succeeds and stores nothing; otherwise one unused record with the token's hash is appended, expiring 30 minutes (1,800,000 ms) later |
| Password.FindLive | src/controllers/password.controller.js:33 | the lookup finds a record with the same email and hash that is unused and unexpired, or none exactly when no record is |
| Password.ResetPassword | src/controllers/password.controller.js:29-46 | a short token or password or a bad email is 422 before any lookup; no live record is 400; a missing user is 404; success marks that record used and sets the user's hash to bcrypt of the new password |
| Password.ResetAcceptedExactly | src/controllers/password.controller.js:31-36 | a reset succeeds exactly when the input is valid, a live record exists and the user exists |
| Password.ExpiryIsExclusive | src/controllers/password.controller.js:33 | an unused record admits its token one millisecond before `expiresAt` but not at it |
| Password.MarkUsedLeavesNoneLive | src/controllers/password.controller.js:39-40 | marking the only live record used leaves no live record, then or later |
| Password.ReplayFails | src/controllers/password.controller.js:33-40 | when the reset consumed the only live record for that email and token hash, replaying it at the same time or later fails with 400 |
| Password.IssueKeepsEarlierRecords | src/controllers/password.controller.js:18 | issuing a token keeps every earlier record as it was, so earlier tokens stay valid |
| Password.IssueThenReset | src/controllers/password.controller.js:10-46 | a token issued to a known user resets that user's password at any time before it expires |
| Password.IssuedTokenExpires | src/controllers/password.controller.js:17 | the issued record no longer admits its token once 30 minutes have passed |

## Left out

- `startPublisherCron` and its timer, and overlapping ticks: concurrency has no pure model. The tick takes `now` as an argument.
- The race between the slug probe and the insert: the code has no retry, so none is modelled.
- Library internals are parameters:
  - `slugify`, `sanitize-html`, zod parsing and its `.url()` / `.email()` checks;
  - `new Date(string)`, SHA-256, bcrypt (its salt included), JWT signing and verification;
  - the random reset token.
- MongoDB behaviour outside the filters:
  - `populate` and `select` projections;
  - `$text` relevance scoring, which is the parameter `score`;
  - the order among ties, which the model fixes as stable;
  - the internals of the aggregation pipeline beyond group, sort and limit.
- `parseInt` returning `NaN` for non-numeric `page` or `limit`: page and limit arrive as integers or absent.
- Repeated query keys that arrive as arrays: every query value is a single string.
- A `q` in `listUsers` that is not a valid regular expression throws and becomes a 500. Matching is the parameter `regexMatch`.
- The non-production echo of the reset token in the response: it depends on the environment and changes no state.
- `deleteUser`: a thin `findByIdAndDelete` wrapper with no check.
- `adminCreateScheduledPost`, `adminPublishPostNow` and `listScheduledPosts` are imported by the admin routes, but their code is not part of this model.
- No rule that collapses a past schedule into "publish now", and no `publishedAt <= now` read filter: the code has neither.
- Mongoose casting of `categoryId` and date strings: a category is stored as the string given, and a date as the parameter's answer.
- Case folding of emails: emails compare exactly.
- Posts.Summary: slices by characters, not by UTF-16 code units as JavaScript does.
- Posts.NewPost and Posts.CreatePost: the stored defaults `views: 0`, `isFeatured: false`, `trendScore: 0` and `tags: []` are assumed; src/models/BlogPost.model.js is not part of this model.
- Posts.MergeFields, Posts.MergeNothingIsIdentity and Posts.UpdatePost: `updateSchema = createSchema.partial()` (src/controllers/post.controller.js:113) is read with zod 3 semantics, where an absent `status` stays absent and the post keeps its status. Under zod 4, `.partial()` keeps the inner `.default('draft')` of line 76, so an update that omits `status` would set it to `draft` through line 131 and unpublish the post. The zod version is not part of this model.
- Posts.FieldsValid, and so Posts.CreatePost and Posts.UpdatePost: the zod `.min(3)` and `.min(10)` checks on title and content count characters here, not UTF-16 code units.
- Password.ResetInputValid, and so Password.ResetPassword: the zod `.min(20)` and `.min(6)` checks on token and password count characters here, not UTF-16 code units.
- Posts.ListPosts, Home.TrendingPosts and Search.Search: `trendScore` and the `$text` relevance score are integers here; the database stores them as floating-point numbers.
- Failed requests in the modelled error cases (validation, missing record, guard) return an error and no new store, so such a failure changes nothing by construction; this is not stated as a separate lemma.
- Thrown database errors: a failing query or save becomes a 500 through src/middleware/error.js:8 and is not modelled, except the save that ends the publish tick.
- Password.ResetPassword: the user is saved before the record is marked used (src/controllers/password.controller.js:37-40), and nothing makes the pair atomic. If the second save throws, the password has changed while the token stays live and the answer is 500; the model treats the two writes as one step.
- Posts.Authorize and Admin.UpdateUser and Admin.ToggleFeatured: a malformed id makes `findById` throw a cast error, which becomes 500; the model compares ids as strings and answers 404 for any id it does not find.
- Posts.GetBySlug: when the post has no `publishedAt`, the model gives no `previous` or `next`. MongoDB's handling of `$lt: undefined` is not modelled. A post without a category is related to other posts without one.

=== FILE: admin.dfy ===
/**
 The admin handlers: listing users, changing a user's role, and setting a
 post's featured flag. The `q` filter of `listUsers` builds a
 case-insensitive regular expression from the request; whether it matches
 a string is the parameter `regexMatch(q, s)`.
 */
module Admin {
  import opened Domain
  import opened Sorting
  import Paging

  /** The query string of `listUsers`, with `page` and `limit` already read as integers. */
  datatype UserQuery = UserQuery(role: Option<string>, q: Option<string>, page: Option<int>, limit: Option<int>)

  /** The `filter` of `listUsers`: exact role, and the pattern found in the name or the email. */
  predicate UserFilter(query: UserQuery, regexMatch: (string, string) -> bool, u: User) {
    && (Given(query.role) ==> u.role == query.role.value)
    && (Given(query.q) ==> regexMatch(query.q.value, u.fullName) || regexMatch(query.q.value, u.email))
  }

  function CreatedKey(u: User): Key {
    Key(u.createdAt, 0, 0)
  }

  function UserMatches(users: seq<User>, query: UserQuery, regexMatch: (string, string) -> bool): (r: seq<User>)
    ensures |r| == Paging.Count(users, u => UserFilter(query, regexMatch, u))
    ensures forall k :: 0 <= k < |r| ==> r[k] in users && UserFilter(query, regexMatch, r[k])
    ensures forall j :: 0 <= j < |users| && UserFilter(query, regexMatch, users[j]) ==> users[j] in r
  {
    Paging.CountIsFilterLength(users, u => UserFilter(query, regexMatch, u));
    Paging.Filter(users, u => UserFilter(query, regexMatch, u))
  }

  /** `listUsers`: limit defaults to 20 and is capped at 100; newest accounts first. */
  function ListUsers(users: seq<User>, query: UserQuery, regexMatch: (string, string) -> bool): (r: Paging.Listing<User>)
    ensures r.page >= 1 && 1 <= r.limit <= 100 && |r.data| <= r.limit
    ensures r.page == Paging.ClampPage(query.page) && r.limit == Paging.ClampLimit(query.limit, 20, 100)
    ensures query.page.None? ==> r.page == 1
    ensures query.page.Some? && query.page.value >= 1 ==> r.page == query.page.value
    ensures query.limit.None? ==> r.limit == 20
    ensures Paging.IsPageOf(r.data, SortDesc(UserMatches(users, query, regexMatch), CreatedKey), r.page, r.limit)
    ensures query.limit.Some? && 1 <= query.limit.value <= 100 ==> r.limit == query.limit.value
    ensures forall k :: 0 <= k < |r.data| ==> r.data[k] in users && UserFilter(query, regexMatch, r.data[k])
    ensures forall i, k :: 0 <= i < k < |r.data| ==> r.data[i].createdAt >= r.data[k].createdAt
    ensures r.total == Paging.Count(users, u => UserFilter(query, regexMatch, u))
    ensures |r.data| <= r.total
  {
    var pg := Paging.ClampPage(query.page);
    var lim := Paging.ClampLimit(query.limit, 20, 100);
    var matches := UserMatches(users, query, regexMatch);
    Paging.Listing(Paging.SortedPage(matches, CreatedKey, pg, lim), pg, lim, |matches|)
  }

  /** With a role given, every listed user has exactly that role and `total` counts only such users. */
  lemma ListUsersRoleFilter(users: seq<User>, query: UserQuery, regexMatch: (string, string) -> bool)
    requires Given(query.role)
    ensures forall k :: 0 <= k < |ListUsers(users, query, regexMatch).data| ==>
      ListUsers(users, query, regexMatch).data[k].role == query.role.value
    ensures ListUsers(users, query, regexMatch).total <= Paging.Count(users, (u: User) => u.role == query.role.value)
  {
    Paging.CountMonotone(users, u => UserFilter(query, regexMatch, u), (u: User) => u.role == query.role.value);
  }

  /** `z.enum(['admin', 'user'])`. */
  predicate ValidRole(role: string) {
    role == AdminRole || role == UserRole
  }

  /**
   `updateUser`: an invalid role fails validation (422) before the lookup;
   a missing user is 404; otherwise the role is set when supplied and no
   other field changes.
   */
  function UpdateUser(users: seq<User>, id: Id, role: Option<string>): (r: Result<seq<User>>)
    ensures r == Err(ValidationError) <==> role.Some? && !ValidRole(role.value)
    ensures r == Err(NotFound) <==> (role.None? || ValidRole(role.value)) && FindUser(users, id).None?
    ensures r.Ok? ==> |r.value| == |users|
    ensures r.Ok? ==> forall j :: 0 <= j < |users| && j != FindUser(users, id).value ==> r.value[j] == users[j]
    ensures r.Ok? ==> var i := FindUser(users, id).value;
      r.value[i].(role := users[i].role) == users[i] &&
      r.value[i].role == (if role.Some? then role.value else users[i].role)
  {
    if role.Some? && !ValidRole(role.value) then Err(ValidationError)
    else match FindUser(users, id)
      case None => Err(NotFound)
      case Some(i) =>
        if role.Some? then Ok(users[i := users[i].(role := role.value)]) else Ok(users)
  }

  /** Changing a role keeps every user's id, so a second identical request finds the same user and changes nothing more. */
  lemma UpdateUserIdempotent(users: seq<User>, id: Id, role: Option<string>)
    requires UpdateUser(users, id, role).Ok?
    ensures UpdateUser(UpdateUser(users, id, role).value, id, role) == UpdateUser(users, id, role)
  {
    var u := UpdateUser(users, id, role).value;
    var i := FindUser(users, id).value;
    assert forall j :: 0 <= j < |u| ==> u[j].id == users[j].id;
    FindUserSameIds(users, u, id);
    if role.Some? {
      assert u[i].(role := role.value) == u[i];
      assert u[i := u[i]] == u;
    }
  }

  /** Two user lists with the same ids at the same places agree on every lookup by id. */
  lemma {:induction false} FindUserSameIds(a: seq<User>, b: seq<User>, id: Id)
    requires |a| == |b| && forall j :: 0 <= j < |a| ==> a[j].id == b[j].id
    ensures FindUser(a, id) == FindUser(b, id)
  {
    if a != [] {
      assert forall j :: 0 <= j < |a| - 1 ==> a[1..][j].id == b[1..][j].id;
      FindUserSameIds(a[1..], b[1..], id);
    }
  }

  /**
   `toggleFeatured`: the body must carry a boolean (422 otherwise); a
   missing post is 404; otherwise `isFeatured` takes the given value and
   nothing else changes.
   */
  function ToggleFeatured(store: seq<Post>, id: Id, isFeatured: Option<bool>): (r: Result<seq<Post>>)
    ensures r == Err(ValidationError) <==> isFeatured.None?
    ensures r == Err(NotFound) <==> isFeatured.Some? && FindPost(store, id).None?
    ensures r.Ok? ==> |r.value| == |store|
    ensures r.Ok? ==> forall j :: 0 <= j < |store| && j != FindPost(store, id).value ==> r.value[j] == store[j]
    ensures r.Ok? ==> var i := FindPost(store, id).value;
      r.value[i] == store[i].(isFeatured := isFeatured.value)
  {
    match isFeatured
    case None => Err(ValidationError)
    case Some(b) =>
      match FindPost(store, id)
      case None => Err(NotFound)
      case Some(i) => Ok(store[i := store[i].(isFeatured := b)])
  }

  /** Setting the flag twice to the same value is the same as setting it once. */
  lemma ToggleFeaturedIdempotent(store: seq<Post>, id: Id, isFeatured: Option<bool>)
    requires ToggleFeatured(store, id, isFeatured).Ok?
    ensures ToggleFeatured(ToggleFeatured(store, id, isFeatured).value, id, isFeatured) == ToggleFeatured(store, id, isFeatured)
  {
    var t := ToggleFeatured(store, id, isFeatured).value;
    assert forall j :: 0 <= j < |t| ==> t[j].id == store[j].id;
    FindPostSameIds(store, t, id);
    var i := FindPost(store, id).value;
    assert t[i].(isFeatured := isFeatured.value) == t[i];
    assert t[i := t[i]] == t;
  }

  /** Two stores with the same ids at the same places agree on every lookup by id. */
  lemma {:induction false} FindPostSameIds(a: seq<Post>, b: seq<Post>, id: Id)
    requires |a| == |b| && forall j :: 0 <= j < |a| ==> a[j].id == b[j].id
    ensures FindPost(a, id) == FindPost(b, id)
  {
    if a != [] {
      assert forall j :: 0 <= j < |a| - 1 ==> a[1..][j].id == b[1..][j].id;
      FindPostSameIds(a[1..], b[1..], id);
    }
  }
}

=== FILE: auth.dfy ===
/**
 Request authentication: `authMiddleware` takes the bearer token from the
 `Authorization` header and hands it to JWT verification, and `requireRole`
 admits a request by the role in the decoded payload. Verification itself
 (signature, expiry, secret) is an oracle: `verify` returns the payload or
 nothing.
 */
module Auth {
  import opened Domain

  /** The decoded token payload the middleware stores as `req.user`. */
  datatype Claims = Claims(id: Id, role: string)

  const BearerPrefix: string := "Bearer "

  /**
   `header.startsWith('Bearer ') ? header.slice(7) : null`, with an absent
   header read as `''`. The prefix is exact and case-sensitive.
   */
  function BearerToken(header: Option<string>): (token: Option<string>)
    ensures token.Some? <==> header.Some? && |header.value| >= 7 && header.value[..7] == BearerPrefix
    ensures token.Some? ==> header.value == BearerPrefix + token.value
  {
    var h := match header case None => "" case Some(v) => v;
    if |h| >= 7 && h[..7] == BearerPrefix then Some(h[7..]) else None
  }

  /** Extracting the token from a header built from it gives the token back. */
  lemma BearerTokenRoundTrip(token: string)
    ensures BearerToken(Some(BearerPrefix + token)) == Some(token)
  {
    assert (BearerPrefix + token)[..7] == BearerPrefix;
    assert (BearerPrefix + token)[7..] == token;
  }

  /** The middleware either calls the next handler with `req.user` set or answers 401. */
  datatype AuthOutcome = Next(user: Claims) | Reject(error: ApiError)

  /** `authMiddleware`. */
  function Authenticate(header: Option<string>, verify: string -> Option<Claims>): (r: AuthOutcome)
    ensures r == Reject(MissingToken) <==> BearerToken(header).None? || BearerToken(header).value == ""
    ensures r == Reject(InvalidAuthToken) <==>
      BearerToken(header).Some? && BearerToken(header).value != "" && verify(BearerToken(header).value).None?
    ensures r.Next? ==>
      exists token :: token != "" && header == Some(BearerPrefix + token) && verify(token) == Some(r.user)
    ensures r.Reject? ==> r.error.HttpStatus() == 401
  {
    match BearerToken(header)
    case None => Reject(MissingToken)
    case Some(token) =>
      if token == "" then Reject(MissingToken)
      else match verify(token)
        case None => Reject(InvalidAuthToken)
        case Some(claims) =>
          BearerTokenRoundTrip(token);
          Next(claims)
  }

  /** A header carrying a non-empty token that verifies lets the request through with its payload. */
  lemma AuthenticateAccepts(token: string, verify: string -> Option<Claims>)
    requires token != "" && verify(token).Some?
    ensures Authenticate(Some(BearerPrefix + token), verify) == Next(verify(token).value)
  {
    BearerTokenRoundTrip(token);
  }

  /** A header that is absent, lacks the exact prefix, or has nothing after it never reaches a handler. */
  lemma NoBearerTokenRejected(header: Option<string>, verify: string -> Option<Claims>)
    requires header.None? || header == Some(BearerPrefix) || forall token :: header != Some(BearerPrefix + token)
    ensures Authenticate(header, verify) == Reject(MissingToken)
  {
    if header == Some(BearerPrefix) {
      BearerTokenRoundTrip("");
      assert BearerPrefix + "" == BearerPrefix;
    }
  }

  /**
   `requireRole(role)`: a request passes when a user is present and its role
   is `role` or `admin`; otherwise it gets 403.
   */
  function RequireRole(user: Option<Claims>, role: string): (r: Option<ApiError>)
    ensures r.None? || r == Some(Forbidden)
  {
    if user.None? || (user.value.role != role && user.value.role != AdminRole) then Some(Forbidden) else None
  }

  /** An admin passes every role check. */
  lemma AdminPassesEveryCheck(user: Claims, role: string)
    requires user.role == AdminRole
    ensures RequireRole(Some(user), role).None?
  {
  }

  /** `requireRole('admin')` admits exactly the admins, and `requireRole(r)` exactly role `r` or admin. */
  lemma RequireRoleAdmits(user: Option<Claims>, role: string)
    ensures RequireRole(user, role).None? <==> user.Some? && (user.value.role == role || user.value.role == AdminRole)
    ensures RequireRole(user, AdminRole).None? <==> user.Some? && user.value.role == AdminRole
  {
  }
}

=== FILE: domain.dfy ===
/**
 The shared data model of the blog backend: identifiers, the post and user
 records the controllers read and write, the API error codes, and the two
 failure-compatible wrappers used throughout.

 The store is a finite sequence of records in the database's natural order;
 `findOne`/`findById` return the first record that matches.
 */
module Domain {

  datatype Option<+T> = None | Some(value: T)

  /** A query-string value that JavaScript treats as true: present and non-empty. */
  predicate Given(v: Option<string>) {
    v.Some? && v.value != ""
  }

  /** The error codes the controllers send, with their HTTP status. */
  datatype ApiError =
    | ValidationError   // 422, a zod schema rejected the input
    | NotFound          // 404
    | Forbidden         // 403
    | MissingToken      // 401 "Missing token"
    | InvalidAuthToken  // 401 "Invalid token"
    | InvalidResetToken // 400 INVALID_TOKEN
  {
    function HttpStatus(): (code: int)
      ensures 400 <= code < 500
      ensures code == 422 <==> this == ValidationError
      ensures code == 401 <==> (this == MissingToken || this == InvalidAuthToken)
    {
      match this
      case ValidationError => 422
      case NotFound => 404
      case Forbidden => 403
      case MissingToken => 401
      case InvalidAuthToken => 401
      case InvalidResetToken => 400
    }
  }

  datatype Result<+T> = Ok(value: T) | Err(error: ApiError)

  type Id = nat

  /** Time is integer milliseconds since the epoch. */
  type Millis = int

  /** `auto-generated` posts appear in the database but no code shown here produces them. */
  datatype Status = Draft | Scheduled | Published | AutoGenerated

  datatype Post = Post(
    id: Id,
    author: Id,
    title: string,
    subtitle: Option<string>,
    slug: string,
    contentHtml: string,
    summary: string,
    readingTimeMinutes: nat,
    bannerImageUrl: Option<string>,
    imageUrls: seq<string>,
    category: Option<string>,
    tags: seq<string>,
    status: Status,
    publishedAt: Option<Millis>,
    views: nat,
    isFeatured: bool,
    trendScore: int)

  datatype User = User(
    id: Id,
    fullName: string,
    email: string,
    passwordHash: string,
    role: string,
    createdAt: Millis)

  const AdminRole: string := "admin"
  const UserRole: string := "user"

  /** Index of the first element that `matches`, if any: `findOne` over the natural order. */
  function FindFirst<T>(s: seq<T>, matches: T -> bool): (r: Option<nat>)
    ensures r.Some? ==> r.value < |s| && matches(s[r.value])
    ensures r.Some? ==> forall j :: 0 <= j < r.value ==> !matches(s[j])
    ensures r.None? <==> forall j :: 0 <= j < |s| ==> !matches(s[j])
  {
    if s == [] then None
    else if matches(s[0]) then Some(0)
    else match FindFirst(s[1..], matches)
      case None => None
      case Some(k) => Some(k + 1)
  }

  /** Index of the first post with the given id, if any (`findById`). */
  function FindPost(store: seq<Post>, id: Id): (r: Option<nat>)
    ensures r.Some? ==> r.value < |store| && store[r.value].id == id
    ensures r.Some? ==> forall j :: 0 <= j < r.value ==> store[j].id != id
    ensures r.None? <==> forall j :: 0 <= j < |store| ==> store[j].id != id
  {
    FindFirst(store, (p: Post) => p.id == id)
  }

  /** Index of the first user with the given id, if any (`User.findById`). */
  function FindUser(users: seq<User>, id: Id): (r: Option<nat>)
    ensures r.Some? ==> r.value < |users| && users[r.value].id == id
    ensures r.Some? ==> forall j :: 0 <= j < r.value ==> users[j].id != id
    ensures r.None? <==> forall j :: 0 <= j < |users| ==> users[j].id != id
  {
    FindFirst(users, (u: User) => u.id == id)
  }

  /** Index of the first user with the given email, if any (`User.findOne({ email })`). */
  function FindUserByEmail(users: seq<User>, email: string): (r: Option<nat>)
    ensures r.Some? ==> r.value < |users| && users[r.value].email == email
    ensures r.Some? ==> forall j :: 0 <= j < r.value ==> users[j].email != email
    ensures r.None? <==> forall j :: 0 <= j < |users| ==> users[j].email != email
  {
    FindFirst(users, (u: User) => u.email == email)
  }

  /** An id no post in the store holds, standing in for a freshly generated ObjectId. */
  function FreshId(store: seq<Post>): (r: Id)
    ensures forall j :: 0 <= j < |store| ==> store[j].id < r
  {
    if store == [] then 0
    else
      var rest := FreshId(store[1..]);
      assert forall j :: 1 <= j < |store| ==> store[j].id == store[1..][j - 1].id;
      if store[0].id < rest then rest else store[0].id + 1
  }

  ghost predicate IdsUnique(store: seq<Post>) {
    forall i, j :: 0 <= i < j < |store| ==> store[i].id != store[j].id
  }

  ghost predicate SlugsUnique(store: seq<Post>) {
    forall i, j :: 0 <= i < j < |store| ==> store[i].slug != store[j].slug
  }
}

=== FILE: home.dfy ===
/**
 The home page: four independent queries over the published posts, the
 featured, trending and recent lists (six each) and the five authors with
 the most published posts.
 */
module Home {
  import opened Domain
  import opened Sorting
  import opened PostOrder
  import Paging

  const ListSize := 6
  const TopAuthorCount := 5

  /**
   `find(filter).sort(order).limit(k)` over the posts `keep` admits: at
   most `k` of them, in order, and nothing left out outranks anything kept.
   */
  function Top(store: seq<Post>, keep: Post -> bool, key: Post -> Key, k: nat): (r: seq<Post>)
    ensures |r| == if Paging.Count(store, keep) < k then Paging.Count(store, keep) else k
    ensures forall i :: 0 <= i < |r| ==> r[i] in store && keep(r[i])
    ensures SortedDesc(r, key)
    ensures forall j, i :: 0 <= j < |store| && 0 <= i < |r| && keep(store[j]) && store[j] !in r ==> KeyGe(key(r[i]), key(store[j]))
  {
    var matches := Paging.Filter(store, keep);
    Paging.CountIsFilterLength(store, keep);
    TopByMembers(matches, key, k);
    var r := TopBy(matches, key, k);
    forall j, i | 0 <= j < |store| && 0 <= i < |r| && keep(store[j]) && store[j] !in r
      ensures KeyGe(key(r[i]), key(store[j]))
    {
      TopByLeftOut(matches, key, k, store[j], i);
    }
    r
  }

  /** The filter `{ status: 'published', isFeatured: true }`. */
  predicate IsFeaturedPublished(p: Post) {
    IsPublished(p) && p.isFeatured
  }

  /** `featuredPosts`: featured published posts, newest first. */
  function FeaturedPosts(store: seq<Post>): (r: seq<Post>)
    ensures |r| <= ListSize
    ensures |r| == if Paging.Count(store, IsFeaturedPublished) < ListSize then Paging.Count(store, IsFeaturedPublished) else ListSize
    ensures forall i :: 0 <= i < |r| ==> r[i] in store && IsPublished(r[i]) && r[i].isFeatured
    ensures SortedDesc(r, DateKey)
    ensures forall j, i :: 0 <= j < |store| && 0 <= i < |r| && IsPublished(store[j]) && store[j].isFeatured && store[j] !in r ==>
      store[j].publishedAt.None? || (r[i].publishedAt.Some? && store[j].publishedAt.value <= r[i].publishedAt.value)
  {
    var r := Top(store, IsFeaturedPublished, DateKey, ListSize);
    forall j, i | 0 <= j < |store| && 0 <= i < |r| && IsPublished(store[j]) && store[j].isFeatured && store[j] !in r
      ensures store[j].publishedAt.None? || (r[i].publishedAt.Some? && store[j].publishedAt.value <= r[i].publishedAt.value)
    {
      DateKeyOrder(r[i], store[j]);
    }
    r
  }

  /** `trendingPosts`: published posts by trend score. */
  function TrendingPosts(store: seq<Post>): (r: seq<Post>)
    ensures |r| <= ListSize
    ensures |r| == if Paging.Count(store, IsPublished) < ListSize then Paging.Count(store, IsPublished) else ListSize
    ensures forall i :: 0 <= i < |r| ==> r[i] in store && IsPublished(r[i])
    ensures forall i, k :: 0 <= i < k < |r| ==> r[i].trendScore >= r[k].trendScore
    ensures forall j, i :: 0 <= j < |store| && 0 <= i < |r| && IsPublished(store[j]) && store[j] !in r ==>
      store[j].trendScore <= r[i].trendScore
  {
    Top(store, IsPublished, TrendKey, ListSize)
  }

  /** `recentPosts`: published posts, newest first. */
  function RecentPosts(store: seq<Post>): (r: seq<Post>)
    ensures |r| <= ListSize
    ensures |r| == if Paging.Count(store, IsPublished) < ListSize then Paging.Count(store, IsPublished) else ListSize
    ensures forall i :: 0 <= i < |r| ==> r[i] in store && IsPublished(r[i])
    ensures SortedDesc(r, DateKey)
    ensures forall j, i :: 0 <= j < |store| && 0 <= i < |r| && IsPublished(store[j]) && store[j] !in r ==>
      store[j].publishedAt.None? || (r[i].publishedAt.Some? && store[j].publishedAt.value <= r[i].publishedAt.value)
  {
    var r := Top(store, IsPublished, DateKey, ListSize);
    forall j, i | 0 <= j < |store| && 0 <= i < |r| && IsPublished(store[j]) && store[j] !in r
      ensures store[j].publishedAt.None? || (r[i].publishedAt.Some? && store[j].publishedAt.value <= r[i].publishedAt.value)
    {
      DateKeyOrder(r[i], store[j]);
    }
    r
  }

  /** When at most six posts are published, `recentPosts` lists them all. */
  lemma RecentListsAllWhenFew(store: seq<Post>)
    requires Paging.Count(store, IsPublished) <= ListSize
    ensures forall j :: 0 <= j < |store| && IsPublished(store[j]) ==> store[j] in RecentPosts(store)
  {
    var r := RecentPosts(store);
    var matches := Paging.Filter(store, IsPublished);
    Paging.CountIsFilterLength(store, IsPublished);
    var t := SortDesc(matches, DateKey);
    assert r == t[..|r|];
    assert |r| == |t|;
    assert r == t;
    forall j | 0 <= j < |store| && IsPublished(store[j])
      ensures store[j] in r
    {
      assert store[j] in matches;
      assert store[j] in multiset(matches);
      assert store[j] in multiset(t);
    }
  }

  // ---------------------------------------------------------------------
  // Top authors: `$match` published, `$group` by author with a count,
  // `$sort` by the count descending, `$limit` 5.

  /** One `$group` output document. */
  datatype AuthorEntry = AuthorEntry(author: Id, posts: nat)

  predicate PublishedBy(a: Id, p: Post) {
    IsPublished(p) && p.author == a
  }

  /** The number of published posts by `a`. */
  function PostsBy(store: seq<Post>, a: Id): nat {
    Paging.Count(store, p => PublishedBy(a, p))
  }

  /** The distinct authors of published posts, in order of first appearance. */
  function PublishedAuthors(s: seq<Post>): (r: seq<Id>)
    ensures forall i, j :: 0 <= i < j < |r| ==> r[i] != r[j]
    ensures forall a :: a in r <==> exists j :: 0 <= j < |s| && PublishedBy(a, s[j])
  {
    if s == [] then []
    else
      var init := s[..|s| - 1];
      var rest := PublishedAuthors(init);
      var p := s[|s| - 1];
      assert forall j :: 0 <= j < |init| ==> init[j] == s[j];
      var r := if IsPublished(p) && p.author !in rest then rest + [p.author] else rest;
      assert forall a :: (exists j :: 0 <= j < |s| && PublishedBy(a, s[j])) ==> a in r by {
        forall a | exists j :: 0 <= j < |s| && PublishedBy(a, s[j])
          ensures a in r
        {
          var j :| 0 <= j < |s| && PublishedBy(a, s[j]);
          if j < |init| {
            assert PublishedBy(a, init[j]);
          }
        }
      }
      r
  }

  function EntryKey(e: AuthorEntry): Key {
    Key(e.posts, 0, 0)
  }

  /** The `$group` stage: one entry per author of a published post, with that author's count. */
  function Groups(store: seq<Post>): (g: seq<AuthorEntry>)
    ensures forall i :: 0 <= i < |g| ==> g[i].posts == PostsBy(store, g[i].author) && g[i].posts >= 1
    ensures forall i, j :: 0 <= i < j < |g| ==> g[i].author != g[j].author
    ensures forall j :: 0 <= j < |store| && IsPublished(store[j]) ==> exists i :: 0 <= i < |g| && g[i].author == store[j].author
  {
    var authors := PublishedAuthors(store);
    var g := seq(|authors|, i requires 0 <= i < |authors| => AuthorEntry(authors[i], PostsBy(store, authors[i])));
    forall i | 0 <= i < |g|
      ensures g[i].posts >= 1
    {
      assert authors[i] in authors;
      var j :| 0 <= j < |store| && PublishedBy(authors[i], store[j]);
      assert (p => PublishedBy(authors[i], p))(store[j]);
    }
    forall j | 0 <= j < |store| && IsPublished(store[j])
      ensures exists i :: 0 <= i < |g| && g[i].author == store[j].author
    {
      assert PublishedBy(store[j].author, store[j]);
      assert store[j].author in authors;
      var i :| 0 <= i < |authors| && authors[i] == store[j].author;
      assert g[i].author == store[j].author;
    }
    g
  }

  /** A sequence without repeats holds each value at most once. */
  lemma {:induction false} DistinctMultiplicity(g: seq<AuthorEntry>, x: AuthorEntry)
    requires forall i, j :: 0 <= i < j < |g| ==> g[i] != g[j]
    ensures multiset(g)[x] <= 1
  {
    if g != [] {
      var init := g[..|g| - 1];
      assert g == init + [g[|g| - 1]];
      assert forall i :: 0 <= i < |init| ==> init[i] == g[i];
      DistinctMultiplicity(init, x);
      if x == g[|g| - 1] {
        assert x !in init;
      }
    }
  }

  /** A value at two positions occurs at least twice. */
  lemma TwoPositions(r: seq<AuthorEntry>, i: nat, j: nat)
    requires i < j < |r| && r[i] == r[j]
    ensures multiset(r)[r[i]] >= 2
  {
    assert r == r[..j] + [r[j]] + r[j + 1..];
    assert r[i] in r[..j];
    assert multiset(r) == multiset(r[..j]) + multiset{r[j]} + multiset(r[j + 1..]);
  }

  /**
   `topAuthors`: at most five entries, each with its author's number of
   published posts, most prolific first.
   */
  function TopAuthors(store: seq<Post>): (r: seq<AuthorEntry>)
    ensures |r| <= TopAuthorCount
    ensures |r| == if |Groups(store)| < TopAuthorCount then |Groups(store)| else TopAuthorCount
    ensures forall i :: 0 <= i < |r| ==> r[i].posts == PostsBy(store, r[i].author) && r[i].posts >= 1
    ensures forall i, k :: 0 <= i < k < |r| ==> r[i].posts >= r[k].posts
  {
    TopByMembers(Groups(store), EntryKey, TopAuthorCount);
    TopBy(Groups(store), EntryKey, TopAuthorCount)
  }

  /** No author appears twice among the top authors. */
  lemma TopAuthorsDistinct(store: seq<Post>)
    ensures var r := TopAuthors(store); forall i, k :: 0 <= i < k < |r| ==> r[i].author != r[k].author
  {
    var g := Groups(store);
    var r := TopAuthors(store);
    forall i, k | 0 <= i < k < |r|
      ensures r[i].author != r[k].author
    {
      if r[i].author == r[k].author {
        assert r[i] == r[k];
        TwoPositions(r, i, k);
        assert forall a, b :: 0 <= a < b < |g| ==> g[a] != g[b];
        DistinctMultiplicity(g, r[i]);
      }
    }
  }

  /** An author of a published post who is left out has no more published posts than any author listed. */
  lemma TopAuthorsLeftOut(store: seq<Post>, j: nat, i: nat)
    requires j < |store| && IsPublished(store[j]) && i < |TopAuthors(store)|
    requires forall k :: 0 <= k < |TopAuthors(store)| ==> TopAuthors(store)[k].author != store[j].author
    ensures PostsBy(store, store[j].author) <= TopAuthors(store)[i].posts
  {
    var g := Groups(store);
    var r := TopAuthors(store);
    var m :| 0 <= m < |g| && g[m].author == store[j].author;
    assert g[m] !in r;
    TopByLeftOut(g, EntryKey, TopAuthorCount, g[m], i);
  }

  /** With at most five authors of published posts, every one of them is listed. */
  lemma TopAuthorsCompleteWhenFew(store: seq<Post>, j: nat)
    requires j < |store| && IsPublished(store[j]) && |Groups(store)| <= TopAuthorCount
    ensures exists i :: 0 <= i < |TopAuthors(store)| && TopAuthors(store)[i].author == store[j].author
  {
    var g := Groups(store);
    var r := TopAuthors(store);
    var t := SortDesc(g, EntryKey);
    assert r == t[..|r|] && |r| == |t|;
    var m :| 0 <= m < |g| && g[m].author == store[j].author;
    assert g[m] in multiset(t);
    var i :| 0 <= i < |t| && t[i] == g[m];
    assert r[i].author == store[j].author;
  }

  /** The home page answer. */
  datatype HomePage = HomePage(featured: seq<Post>, trending: seq<Post>, recent: seq<Post>, topAuthors: seq<AuthorEntry>)

  /** `home`: the four lists, each over the published posts only. */
  function GetHome(store: seq<Post>): (h: HomePage)
    ensures forall i :: 0 <= i < |h.featured| ==> IsPublished(h.featured[i]) && h.featured[i].isFeatured
    ensures forall i :: 0 <= i < |h.trending| ==> IsPublished(h.trending[i])
    ensures forall i :: 0 <= i < |h.recent| ==> IsPublished(h.recent[i])
    ensures forall i :: 0 <= i < |h.topAuthors| ==> h.topAuthors[i].posts >= 1
    ensures |h.featured| <= ListSize && |h.trending| <= ListSize && |h.recent| <= ListSize && |h.topAuthors| <= TopAuthorCount
    ensures |h.featured| == if Paging.Count(store, IsFeaturedPublished) < ListSize then Paging.Count(store, IsFeaturedPublished) else ListSize
    ensures |h.trending| == |h.recent| == if Paging.Count(store, IsPublished) < ListSize then Paging.Count(store, IsPublished) else ListSize
    ensures |h.topAuthors| == if |Groups(store)| < TopAuthorCount then |Groups(store)| else TopAuthorCount
    ensures h.featured == FeaturedPosts(store) && h.trending == TrendingPosts(store)
    ensures h.recent == RecentPosts(store) && h.topAuthors == TopAuthors(store)
  {
    HomePage(FeaturedPosts(store), TrendingPosts(store), RecentPosts(store), TopAuthors(store))
  }
}

=== FILE: order.dfy ===
/**
 The orders the read paths sort posts by, as `Sorting.Key` triples, and the
 `status: 'published'` filter they all start from.

 The database places a document without `publishedAt` below every date in a
 descending date sort; the first key component records whether a date is
 present so that this holds.
 */
module PostOrder {
  import opened Domain
  import opened Sorting

  predicate IsPublished(p: Post) {
    p.status == Published
  }

  /** `sort({ publishedAt: -1 })`. */
  function DateKey(p: Post): Key {
    match p.publishedAt
    case None => Key(0, 0, 0)
    case Some(t) => Key(1, t, 0)
  }

  /** `sort({ isFeatured: -1, publishedAt: -1 })`. */
  function FeaturedKey(p: Post): Key {
    var featured := if p.isFeatured then 2 else 0;
    match p.publishedAt
    case None => Key(featured, 0, 0)
    case Some(t) => Key(featured + 1, t, 0)
  }

  /** `sort({ trendScore: -1 })`. */
  function TrendKey(p: Post): Key {
    Key(p.trendScore, 0, 0)
  }

  /** `sort({ publishedAt: 1 })`, written as a descending sort on the negated date. */
  function DateAscKey(p: Post): Key {
    match p.publishedAt
    case None => Key(1, 0, 0)
    case Some(t) => Key(0, -t, 0)
  }

  /** `a` may precede `b` in a descending date sort: `b` has no date, or both have one and `a`'s is not earlier. */
  lemma DateKeyOrder(a: Post, b: Post)
    ensures KeyGe(DateKey(a), DateKey(b)) <==>
      b.publishedAt.None? || (a.publishedAt.Some? && a.publishedAt.value >= b.publishedAt.value)
  {
  }

  /** Featured posts come first; within each group the date order applies. */
  lemma FeaturedKeyOrder(a: Post, b: Post)
    ensures KeyGe(FeaturedKey(a), FeaturedKey(b)) <==>
      (a.isFeatured && !b.isFeatured) || (a.isFeatured == b.isFeatured && KeyGe(DateKey(a), DateKey(b)))
  {
  }

  /** Among dated posts, the ascending key puts the earlier date first. */
  lemma DateAscKeyOrder(a: Post, b: Post)
    requires a.publishedAt.Some? && b.publishedAt.Some?
    ensures KeyGe(DateAscKey(a), DateAscKey(b)) <==> a.publishedAt.value <= b.publishedAt.value
  {
  }
}

=== FILE: paging.dfy ===
/**
 Query helpers shared by every list endpoint: filtering a collection,
 the `page`/`limit` clamps and `skip((page - 1) * limit).limit(limit)`.
 */
module Paging {
  import opened Domain
  import opened Sorting

  /** What a list endpoint answers: one page of results and the `meta` block. */
  datatype Listing<T> = Listing(data: seq<T>, page: int, limit: int, total: nat)

  /** The elements of `s` that satisfy `keep`, in their original order (`find(filter)`). */
  function Filter<T(==)>(s: seq<T>, keep: T -> bool): (r: seq<T>)
    ensures |r| <= |s|
    ensures forall k :: 0 <= k < |r| ==> keep(r[k]) && r[k] in s
    ensures forall k :: 0 <= k < |s| && keep(s[k]) ==> s[k] in r
  {
    if s == [] then []
    else
      var init := s[..|s| - 1];
      var rest := Filter(init, keep);
      assert forall k :: 0 <= k < |s| - 1 ==> s[k] == init[k];
      if keep(s[|s| - 1]) then rest + [s[|s| - 1]] else rest
  }

  /** The number of elements of `s` that satisfy `keep` (`countDocuments(filter)`). */
  function Count<T>(s: seq<T>, keep: T -> bool): (n: nat)
    ensures n <= |s|
    ensures n == 0 <==> forall k :: 0 <= k < |s| ==> !keep(s[k])
  {
    if s == [] then 0
    else
      assert forall k :: 0 <= k < |s| - 1 ==> s[..|s| - 1][k] == s[k];
      Count(s[..|s| - 1], keep) + (if keep(s[|s| - 1]) then 1 else 0)
  }

  /** Counting a filter and filtering then measuring agree: `total` describes the query's matches. */
  lemma {:induction false} CountIsFilterLength<T>(s: seq<T>, keep: T -> bool)
    ensures Count(s, keep) == |Filter(s, keep)|
  {
    if s != [] {
      CountIsFilterLength(s[..|s| - 1], keep);
    }
  }

  /** Counting over two stretches adds up. */
  lemma {:induction false} CountConcat<T>(a: seq<T>, b: seq<T>, keep: T -> bool)
    ensures Count(a + b, keep) == Count(a, keep) + Count(b, keep)
    decreases |b|
  {
    if b == [] {
      assert a + b == a;
    } else {
      var c := a + b;
      assert c[..|c| - 1] == a + b[..|b| - 1];
      assert c[|c| - 1] == b[|b| - 1];
      CountConcat(a, b[..|b| - 1], keep);
    }
  }

  /** Counting from the front: the first element, then the rest. */
  lemma CountCons<T>(x: T, rest: seq<T>, keep: T -> bool)
    ensures Count([x] + rest, keep) == (if keep(x) then 1 else 0) + Count(rest, keep)
  {
    CountConcat([x], rest, keep);
    assert [x][..0] == [];
  }

  /** Counting around one position: before it, at it, and after it. */
  lemma CountAt<T>(s: seq<T>, k: nat, keep: T -> bool)
    requires k < |s|
    ensures Count(s, keep) == Count(s[..k], keep) + (if keep(s[k]) then 1 else 0) + Count(s[k + 1..], keep)
  {
    var pre, tail, rest := s[..k], s[k..], s[k + 1..];
    assert pre + tail == s;
    CountConcat(pre, tail, keep);
    assert [s[k]] + rest == tail;
    CountCons(s[k], rest, keep);
  }

  /** When every element passes, the count is the length. */
  lemma {:induction false} CountAll<T>(s: seq<T>, keep: T -> bool)
    requires forall k :: 0 <= k < |s| ==> keep(s[k])
    ensures Count(s, keep) == |s|
  {
    if s != [] {
      CountAll(s[..|s| - 1], keep);
    }
  }

  /** Narrowing a filter never increases its count. */
  lemma {:induction false} CountMonotone<T>(s: seq<T>, narrow: T -> bool, wide: T -> bool)
    requires forall x :: narrow(x) ==> wide(x)
    ensures Count(s, narrow) <= Count(s, wide)
  {
    if s != [] {
      CountMonotone(s[..|s| - 1], narrow, wide);
    }
  }

  /** `Math.max(parseInt(page || '1'), 1)`: an absent page means 1. */
  function ClampPage(page: Option<int>): (r: int)
    ensures r >= 1
    ensures page.None? ==> r == 1
    ensures page.Some? && page.value >= 1 ==> r == page.value
    ensures page.Some? && page.value < 1 ==> r == 1
  {
    match page
    case None => 1
    case Some(p) => if p < 1 then 1 else p
  }

  /** `Math.min(Math.max(parseInt(limit || default), 1), max)`. */
  function ClampLimit(limit: Option<int>, default: int, max: int): (r: int)
    requires 1 <= default <= max
    ensures 1 <= r <= max
    ensures limit.None? ==> r == default
    ensures limit.Some? && 1 <= limit.value <= max ==> r == limit.value
    ensures limit.Some? && limit.value < 1 ==> r == 1
    ensures limit.Some? && limit.value > max ==> r == max
  {
    var v := match limit case None => default case Some(l) => l;
    if v < 1 then 1 else if v > max then max else v
  }

  /** How many items page `page` of `n` holds: `limit`, fewer on the last page, none past the end. */
  function PageLength(n: nat, page: int, limit: int): nat
    requires page >= 1 && limit >= 1
  {
    var skip := (page - 1) * limit;
    if n <= skip then 0 else if n - skip < limit then n - skip else limit
  }

  /** `r` is what `skip((page - 1) * limit).limit(limit)` leaves of `t`. */
  ghost predicate IsPageOf<T>(r: seq<T>, t: seq<T>, page: int, limit: int) {
    && page >= 1 && limit >= 1
    && |r| == PageLength(|t|, page, limit)
    && forall k :: 0 <= k < |r| ==> (page - 1) * limit + k < |t| && r[k] == t[(page - 1) * limit + k]
  }

  /** `skip((page - 1) * limit).limit(limit)`. */
  function Page<T>(s: seq<T>, page: int, limit: int): (r: seq<T>)
    requires page >= 1 && limit >= 1
    ensures IsPageOf(r, s, page, limit)
    ensures |r| <= limit
    ensures (page - 1) * limit + limit <= |s| ==> |r| == limit
    ensures |s| <= (page - 1) * limit ==> r == []
  {
    var skip := (page - 1) * limit;
    if |s| <= skip then []
    else if |s| <= skip + limit then s[skip..]
    else s[skip..skip + limit]
  }

  /** Every element lies on exactly the page its position predicts, so paging through loses nothing. */
  lemma EveryElementOnItsPage<T>(s: seq<T>, limit: int, j: nat)
    requires limit >= 1 && j < |s|
    ensures j / limit + 1 >= 1
    ensures j % limit < |Page(s, j / limit + 1, limit)|
    ensures Page(s, j / limit + 1, limit)[j % limit] == s[j]
  {
    var p := j / limit + 1;
    assert (p - 1) * limit + j % limit == j;
    assert (p - 1) * limit <= j < (p - 1) * limit + limit;
  }

  /** The first `k` elements (`.limit(k)` without a skip). */
  function Take<T>(s: seq<T>, k: nat): (r: seq<T>)
    ensures |r| == if |s| < k then |s| else k
    ensures r == s[..|r|]
  {
    if |s| <= k then s else s[..k]
  }

  /**
   `find(filter).sort(order).skip((page - 1) * limit).limit(limit)` over the
   matches `s`: the items at positions `(page - 1) * limit` onwards of the
   sorted matches, at most `limit` of them.
   */
  function SortedPage<T(==)>(s: seq<T>, key: T -> Key, page: int, limit: int): (r: seq<T>)
    requires page >= 1 && limit >= 1
    ensures IsPageOf(r, SortDesc(s, key), page, limit)
    ensures |r| <= limit && |r| <= |s|
    ensures SortedDesc(r, key)
    ensures forall k :: 0 <= k < |r| ==> r[k] in s
  {
    var t := SortDesc(s, key);
    PageOfSorted(t, key, page, limit);
    PageWithin(t, page, limit);
    SameElements(t, s);
    Page(t, page, limit)
  }

  /** Pages come in rank order: every item on an earlier page ranks at least as high as every item on a later one. */
  lemma PagesRanked<T>(s: seq<T>, key: T -> Key, limit: int, p1: int, p2: int, i: nat, j: nat)
    requires limit >= 1 && 1 <= p1 < p2
    requires i < |SortedPage(s, key, p1, limit)| && j < |SortedPage(s, key, p2, limit)|
    ensures KeyGe(key(SortedPage(s, key, p1, limit)[i]), key(SortedPage(s, key, p2, limit)[j]))
  {
    RankedAcross(SortDesc(s, key), SortedPage(s, key, p1, limit), SortedPage(s, key, p2, limit), key, limit, p1, p2, i, j);
  }

  /** Two pages of one sorted sequence: the earlier one's items rank at least as high. */
  lemma RankedAcross<T>(t: seq<T>, r1: seq<T>, r2: seq<T>, key: T -> Key, limit: int, p1: int, p2: int, i: nat, j: nat)
    requires SortedDesc(t, key) && IsPageOf(r1, t, p1, limit) && IsPageOf(r2, t, p2, limit) && p1 < p2
    requires i < |r1| && j < |r2|
    ensures KeyGe(key(r1[i]), key(r2[j]))
  {
    var o1, o2 := (p1 - 1) * limit + i, (p2 - 1) * limit + j;
    assert i < limit;
    PageStartsIncrease(p1, p2, limit);
    assert o1 < o2;
    assert r1[i] == t[o1] && r2[j] == t[o2];
  }

  /** A later page starts at least a whole page further on. */
  lemma PageStartsIncrease(p1: int, p2: int, limit: int)
    requires limit >= 1 && p1 < p2
    ensures (p1 - 1) * limit + limit <= (p2 - 1) * limit
  {
    assert (p2 - 1) * limit - (p1 - 1) * limit == (p2 - p1) * limit;
    MulMonotone(1, p2 - p1, limit);
  }

  lemma MulMonotone(a: int, b: int, c: int)
    requires a <= b && c >= 0
    ensures a * c <= b * c
  {
    assert b * c - a * c == (b - a) * c;
  }

  lemma SameElements<T>(t: seq<T>, s: seq<T>)
    requires multiset(t) == multiset(s)
    ensures forall x :: x in t ==> x in s
  {
    forall x | x in t
      ensures x in s
    {
      assert x in multiset(t);
    }
  }

  lemma PageOfSorted<T>(t: seq<T>, key: T -> Key, page: int, limit: int)
    requires page >= 1 && limit >= 1 && SortedDesc(t, key)
    ensures SortedDesc(Page(t, page, limit), key)
  {
    var r := Page(t, page, limit);
    var off := (page - 1) * limit;
    forall i, j | 0 <= i < j < |r|
      ensures KeyGe(key(r[i]), key(r[j]))
    {
      assert r[i] == t[off + i] && r[j] == t[off + j];
    }
  }

  lemma PageWithin<T>(t: seq<T>, page: int, limit: int)
    requires page >= 1 && limit >= 1
    ensures |Page(t, page, limit)| <= |t|
    ensures forall k :: 0 <= k < |Page(t, page, limit)| ==> Page(t, page, limit)[k] in t
  {
    var r := Page(t, page, limit);
    if |r| > 0 {
      assert (page - 1) * limit + |r| - 1 < |t|;
    }
  }

  /** Paging through the sorted matches reaches every match. */
  lemma EveryItemOnSomePage<T>(s: seq<T>, key: T -> Key, limit: int, x: T)
    requires limit >= 1 && x in s
    ensures exists page :: page >= 1 && x in SortedPage(s, key, page, limit)
  {
    var t := SortDesc(s, key);
    assert x in multiset(s);
    assert x in multiset(t);
    var j :| 0 <= j < |t| && t[j] == x;
    EveryElementOnItsPage(t, limit, j);
    assert SortedPage(s, key, j / limit + 1, limit)[j % limit] == x;
  }
}

=== FILE: password.dfy ===
/**
 Password reset: `forgotPassword` stores a hashed one-time token that
 expires thirty minutes later, and `resetPassword` accepts a token only
 against an unused, unexpired record for the same email and then marks
 that record used.

 The random token, the clock, SHA-256, bcrypt and zod's email check are
 parameters.
 */
module Password {
  import opened Domain

  /** One `PasswordResetToken` document. */
  datatype ResetRecord = ResetRecord(email: string, tokenHash: string, expiresAt: Millis, used: bool)

  /** The two collections the handlers touch. */
  datatype Accounts = Accounts(users: seq<User>, records: seq<ResetRecord>)

  datatype Crypto = Crypto(isEmail: string -> bool, sha256: string -> string, bcrypt: string -> string)

  /** `1000 * 60 * 30`: thirty minutes. */
  const TokenLifetime: int := 1_800_000

  const MinTokenLength := 20
  const MinPasswordLength := 6

  /**
   `forgotPassword`. An invalid email is 422; an unknown email succeeds
   without storing anything; otherwise a record for the hash of `token` is
   appended, unused and expiring `TokenLifetime` after `now`.
   */
  function ForgotPassword(acc: Accounts, email: string, token: string, now: Millis, crypto: Crypto): (r: Result<Accounts>)
    ensures r.Err? <==> !crypto.isEmail(email)
    ensures r.Err? ==> r.error == ValidationError
    ensures r.Ok? ==> r.value.users == acc.users
    ensures r.Ok? && FindUserByEmail(acc.users, email).None? ==> r.value == acc
    ensures r.Ok? && FindUserByEmail(acc.users, email).Some? ==>
      r.value.records == acc.records + [ResetRecord(email, crypto.sha256(token), now + TokenLifetime, false)]
  {
    if !crypto.isEmail(email) then Err(ValidationError)
    else if FindUserByEmail(acc.users, email).None? then Ok(acc)
    else Ok(acc.(records := acc.records + [ResetRecord(email, crypto.sha256(token), now + TokenLifetime, false)]))
  }

  /** The lookup filter of `resetPassword`: same email and hash, unused, and `expiresAt > now`. */
  predicate Live(rec: ResetRecord, email: string, hash: string, now: Millis) {
    rec.email == email && rec.tokenHash == hash && !rec.used && rec.expiresAt > now
  }

  /** Index of the first live record (`findOne`). */
  function FindLive(records: seq<ResetRecord>, email: string, hash: string, now: Millis): (r: Option<nat>)
    ensures r.Some? ==> r.value < |records| && Live(records[r.value], email, hash, now)
    ensures r.None? <==> forall j :: 0 <= j < |records| ==> !Live(records[j], email, hash, now)
  {
    FindFirst(records, (rec: ResetRecord) => Live(rec, email, hash, now))
  }

  /** The request body passes `resetSchema`. */
  predicate ResetInputValid(token: string, email: string, newPassword: string, crypto: Crypto) {
    |token| >= MinTokenLength && crypto.isEmail(email) && |newPassword| >= MinPasswordLength
  }

  /**
   `resetPassword`: validation (422), then a live record (400), then the
   user (404); on success the user's hash becomes `bcrypt(newPassword)` and
   the record is marked used. A failure changes nothing.
   */
  function ResetPassword(acc: Accounts, token: string, email: string, newPassword: string, now: Millis, crypto: Crypto): (r: Result<Accounts>)
    ensures r == Err(ValidationError) <==> !ResetInputValid(token, email, newPassword, crypto)
    ensures r == Err(InvalidResetToken) <==>
      ResetInputValid(token, email, newPassword, crypto) && FindLive(acc.records, email, crypto.sha256(token), now).None?
    ensures r == Err(NotFound) <==>
      ResetInputValid(token, email, newPassword, crypto) && FindLive(acc.records, email, crypto.sha256(token), now).Some? &&
      FindUserByEmail(acc.users, email).None?
    ensures r.Ok? ==>
      var k := FindLive(acc.records, email, crypto.sha256(token), now).value;
      var u := FindUserByEmail(acc.users, email).value;
      && r.value.records == acc.records[k := acc.records[k].(used := true)]
      && r.value.users == acc.users[u := acc.users[u].(passwordHash := crypto.bcrypt(newPassword))]
  {
    if !ResetInputValid(token, email, newPassword, crypto) then Err(ValidationError)
    else match FindLive(acc.records, email, crypto.sha256(token), now)
      case None => Err(InvalidResetToken)
      case Some(k) =>
        match FindUserByEmail(acc.users, email)
        case None => Err(NotFound)
        case Some(u) =>
          Ok(Accounts(
            acc.users[u := acc.users[u].(passwordHash := crypto.bcrypt(newPassword))],
            acc.records[k := acc.records[k].(used := true)]))
  }

  /** Expiry is exclusive: an unused record admits its token up to one millisecond before `expiresAt`, and not at it. */
  lemma ExpiryIsExclusive(rec: ResetRecord)
    requires !rec.used
    ensures Live(rec, rec.email, rec.tokenHash, rec.expiresAt - 1)
    ensures !Live(rec, rec.email, rec.tokenHash, rec.expiresAt)
  {
  }

  /** A reset succeeds exactly when the input is valid, some record is live and the user exists. */
  lemma ResetAcceptedExactly(acc: Accounts, token: string, email: string, newPassword: string, now: Millis, crypto: Crypto)
    ensures ResetPassword(acc, token, email, newPassword, now, crypto).Ok? <==>
      && ResetInputValid(token, email, newPassword, crypto)
      && (exists j :: 0 <= j < |acc.records| && Live(acc.records[j], email, crypto.sha256(token), now))
      && (exists u :: 0 <= u < |acc.users| && acc.users[u].email == email)
  {
    var hash := crypto.sha256(token);
    if exists j :: 0 <= j < |acc.records| && Live(acc.records[j], email, hash, now) {
      assert FindLive(acc.records, email, hash, now).Some?;
    }
    if exists u :: 0 <= u < |acc.users| && acc.users[u].email == email {
      assert FindUserByEmail(acc.users, email).Some?;
    }
  }

  /** The number of records live for one email, hash and instant. */
  function LiveCount(records: seq<ResetRecord>, email: string, hash: string, now: Millis): (n: nat)
    ensures n == 0 <==> FindLive(records, email, hash, now).None?
    ensures n <= |records|
  {
    if records == [] then 0
    else (if Live(records[0], email, hash, now) then 1 else 0) + LiveCount(records[1..], email, hash, now)
  }

  /** Marking the one live record used leaves no live record, now or later. */
  lemma {:induction false} MarkUsedLeavesNoneLive(records: seq<ResetRecord>, k: nat, email: string, hash: string, now: Millis, later: Millis)
    requires k < |records| && Live(records[k], email, hash, now) && LiveCount(records, email, hash, now) == 1
    requires later >= now
    ensures FindLive(records[k := records[k].(used := true)], email, hash, later).None?
  {
    var marked := records[k := records[k].(used := true)];
    forall j | 0 <= j < |marked|
      ensures !Live(marked[j], email, hash, later)
    {
      if j != k && Live(marked[j], email, hash, later) {
        assert Live(records[j], email, hash, now);
        TwoLive(records, j, k, email, hash, now);
      }
    }
  }

  /** Two distinct live positions make the live count at least two. */
  lemma {:induction false} TwoLive(records: seq<ResetRecord>, a: nat, b: nat, email: string, hash: string, now: Millis)
    requires a < |records| && b < |records| && a != b
    requires Live(records[a], email, hash, now) && Live(records[b], email, hash, now)
    ensures LiveCount(records, email, hash, now) >= 2
  {
    if a == 0 || b == 0 {
      var other := if a == 0 then b else a;
      assert records[1..][other - 1] == records[other];
      assert FindLive(records[1..], email, hash, now).Some?;
    } else {
      assert records[1..][a - 1] == records[a];
      assert records[1..][b - 1] == records[b];
      TwoLive(records[1..], a - 1, b - 1, email, hash, now);
    }
  }

  /**
   A token is single use: when exactly one record admitted it, replaying the
   same request at the same time or later fails with 400.
   */
  lemma ReplayFails(acc: Accounts, token: string, email: string, newPassword: string, now: Millis, later: Millis, crypto: Crypto)
    requires ResetPassword(acc, token, email, newPassword, now, crypto).Ok?
    requires LiveCount(acc.records, email, crypto.sha256(token), now) == 1
    requires later >= now
    ensures ResetPassword(ResetPassword(acc, token, email, newPassword, now, crypto).value, token, email, newPassword, later, crypto)
      == Err(InvalidResetToken)
  {
    var hash := crypto.sha256(token);
    var k := FindLive(acc.records, email, hash, now).value;
    MarkUsedLeavesNoneLive(acc.records, k, email, hash, now, later);
  }

  /** Issuing a token keeps every earlier record exactly as it was, so earlier tokens stay valid. */
  lemma IssueKeepsEarlierRecords(acc: Accounts, email: string, token: string, now: Millis, crypto: Crypto, j: nat)
    requires ForgotPassword(acc, email, token, now, crypto).Ok? && j < |acc.records|
    ensures var r := ForgotPassword(acc, email, token, now, crypto).value.records;
      j < |r| && r[j] == acc.records[j]
  {
  }

  /**
   Issue then reset: a token issued for a known user resets that user's
   password at any time strictly before it expires, provided the token and
   the new password are long enough.
   */
  lemma IssueThenReset(acc: Accounts, email: string, token: string, newPassword: string, issued: Millis, now: Millis, crypto: Crypto)
    requires crypto.isEmail(email) && FindUserByEmail(acc.users, email).Some?
    requires |token| >= MinTokenLength && |newPassword| >= MinPasswordLength
    requires issued <= now < issued + TokenLifetime
    ensures var acc' := ForgotPassword(acc, email, token, issued, crypto).value;
      var r := ResetPassword(acc', token, email, newPassword, now, crypto);
      && r.Ok?
      && r.value.users[FindUserByEmail(acc.users, email).value].passwordHash == crypto.bcrypt(newPassword)
  {
    var acc' := ForgotPassword(acc, email, token, issued, crypto).value;
    var last := |acc'.records| - 1;
    assert Live(acc'.records[last], email, crypto.sha256(token), now);
  }

  /** A token cannot be used once thirty minutes have passed since it was issued, unless another live record admits it. */
  lemma IssuedTokenExpires(acc: Accounts, email: string, token: string, newPassword: string, issued: Millis, now: Millis, crypto: Crypto)
    requires ForgotPassword(acc, email, token, issued, crypto).Ok? && FindUserByEmail(acc.users, email).Some?
    requires now >= issued + TokenLifetime
    ensures var r := ForgotPassword(acc, email, token, issued, crypto).value.records;
      !Live(r[|r| - 1], email, crypto.sha256(token), now)
  {
  }
}

=== FILE: posts.dfy ===
/**
 The post controller: creating and editing posts (with slug probing and
 the author/admin guard), deleting, manual publishing, the public list and
 the read-by-slug path.

 The libraries the controller calls are parameters: `slugify`, the HTML
 sanitizer, `new Date(string)` and zod's URL check. Text search is a
 predicate on a post and the search string.
 */
module Posts {
  import opened Domain
  import opened Sorting
  import opened PostOrder
  import Paging
  import Slugs
  import ReadTime
  import Auth
  import Publisher

  datatype Libraries = Libraries(
    slugify: string -> string,
    sanitize: string -> string,
    parseDate: string -> Millis,
    isUrl: string -> bool)

  /** The request body of `createPost`/`updatePost`; every field may be absent. */
  datatype PostInput = PostInput(
    title: Option<string>,
    subtitle: Option<string>,
    contentHtml: Option<string>,
    bannerImageUrl: Option<string>,
    imageUrls: Option<seq<string>>,
    categoryId: Option<string>,
    tags: Option<seq<string>>,
    status: Option<string>,
    publishedAt: Option<string>)

  /** `z.enum(['draft', 'published'])`: the only statuses a request can ask for. */
  function ParseStatus(s: string): (r: Option<Status>)
    ensures r == Some(Draft) <==> s == "draft"
    ensures r == Some(Published) <==> s == "published"
    ensures r.Some? ==> r.value != Scheduled && r.value != AutoGenerated
  {
    if s == "draft" then Some(Draft) else if s == "published" then Some(Published) else None
  }

  /** The rule each present field must satisfy (`updateSchema`, the create schema made partial). */
  predicate FieldsValid(input: PostInput, libs: Libraries) {
    && (input.title.None? || |input.title.value| >= 3)
    && (input.contentHtml.None? || |input.contentHtml.value| >= 10)
    && (input.bannerImageUrl.None? || libs.isUrl(input.bannerImageUrl.value))
    && (input.imageUrls.None? || forall k :: 0 <= k < |input.imageUrls.value| ==> libs.isUrl(input.imageUrls.value[k]))
    && (input.status.None? || ParseStatus(input.status.value).Some?)
  }

  /** `createSchema`: title and content are required as well. */
  predicate CreateValid(input: PostInput, libs: Libraries) {
    input.title.Some? && input.contentHtml.Some? && FieldsValid(input, libs)
  }

  /** `publishedAt ? new Date(publishedAt) : undefined`: an empty string means no date. */
  function DateField(s: string, libs: Libraries): (r: Option<Millis>)
    ensures r.None? <==> s == ""
  {
    if s == "" then None else Some(libs.parseDate(s))
  }

  /** The summary stored at creation: the sanitized HTML with tags removed, cut to 250 characters. */
  function Summary(html: string): (s: string)
    ensures |s| <= 250
    ensures ReadTime.TagFree(s)
    ensures var text := ReadTime.ReplaceTags(html, ""); |s| <= |text| && s == text[..|s|] && (|s| < 250 ==> s == text)
  {
    var text := ReadTime.ReplaceTags(html, "");
    ReadTime.ReplaceTagsLeavesNoTag(html, "");
    var s := Paging.Take(text, 250);
    ReadTime.TagFreeSlice(text, 0, |s|, s);
    s
  }

  /** Who may update, delete or publish a post: its author, or an admin. */
  predicate CanModify(p: Post, user: Auth.Claims) {
    p.author == user.id || user.role == AdminRole
  }

  /** The guard admits the author whatever their role, every admin, and nobody else. */
  lemma CanModifyExactly(p: Post, user: Auth.Claims)
    ensures user.role == AdminRole ==> CanModify(p, user)
    ensures user.role != AdminRole ==> (CanModify(p, user) <==> p.author == user.id)
  {
  }

  /** A post that was saved: the new store and the record as written. */
  datatype Saved = Saved(store: seq<Post>, post: Post)

  /**
   `createPost`. The new post gets a fresh id, the first free slug of the
   probe, the sanitized content with its reading time and summary, and the
   defaults for counters. The request's `tags` are validated but never
   stored.
   */
  method CreatePost(store: seq<Post>, input: PostInput, user: Auth.Claims, libs: Libraries) returns (r: Result<Saved>)
    ensures r.Err? <==> !CreateValid(input, libs)
    ensures r.Err? ==> r.error == ValidationError
    ensures r.Ok? ==> r.value.store == store + [r.value.post]
    ensures r.Ok? ==> forall j :: 0 <= j < |store| ==> store[j].id != r.value.post.id
    ensures r.Ok? ==>
      var p := r.value.post;
      && p.author == user.id
      && p.title == input.title.value
      && p.subtitle == input.subtitle
      && p.contentHtml == libs.sanitize(input.contentHtml.value)
      && p.readingTimeMinutes == ReadTime.DefaultReadTime(p.contentHtml)
      && p.summary == Summary(p.contentHtml)
      && p.bannerImageUrl == input.bannerImageUrl
      && p.imageUrls == (if input.imageUrls.Some? then input.imageUrls.value else [])
      && p.category == (if input.categoryId.Some? && input.categoryId.value != "" then input.categoryId else None)
      && p.publishedAt == (if input.publishedAt.Some? then DateField(input.publishedAt.value, libs) else None)
      && p.views == 0 && !p.isFeatured && p.trendScore == 0 && p.tags == []
    ensures r.Ok? ==> (r.value.post.status == Published <==> input.status == Some("published"))
    ensures r.Ok? ==> (r.value.post.status == Draft <==> input.status != Some("published"))
    ensures r.Ok? ==> !Slugs.Taken(store, r.value.post.slug, None)
    ensures r.Ok? && !Slugs.Taken(store, libs.slugify(input.title.value), None) ==>
      r.value.post.slug == libs.slugify(input.title.value)
    ensures r.Ok? && Slugs.Taken(store, libs.slugify(input.title.value), None) ==>
      exists n: nat :: n >= 1 && r.value.post.slug == Slugs.Candidate(libs.slugify(input.title.value), n) &&
        forall m: nat :: 1 <= m < n ==> Slugs.Taken(store, Slugs.Candidate(libs.slugify(input.title.value), m), None)
    ensures r.Ok? && SlugsUnique(store) ==> SlugsUnique(r.value.store)
    ensures r.Ok? && IdsUnique(store) ==> IdsUnique(r.value.store)
  {
    if !CreateValid(input, libs) {
      return Err(ValidationError);
    }
    var slug := Slugs.AllocateSlug(store, libs.slugify(input.title.value), None);
    var post := NewPost(FreshId(store), input, user, libs, slug);
    assert forall j :: 0 <= j < |store| ==> store[j].slug != slug;
    AppendKeepsUnique(store, post);
    return Ok(Saved(store + [post], post));
  }

  /** The record `createPost` writes, given its id and its slug. */
  function NewPost(id: Id, input: PostInput, user: Auth.Claims, libs: Libraries, slug: string): (p: Post)
    requires CreateValid(input, libs)
    ensures p.id == id && p.slug == slug
    ensures
      && p.author == user.id
      && p.title == input.title.value
      && p.subtitle == input.subtitle
      && p.contentHtml == libs.sanitize(input.contentHtml.value)
      && p.readingTimeMinutes == ReadTime.DefaultReadTime(p.contentHtml)
      && p.summary == Summary(p.contentHtml)
      && p.bannerImageUrl == input.bannerImageUrl
      && p.imageUrls == (if input.imageUrls.Some? then input.imageUrls.value else [])
      && p.category == (if input.categoryId.Some? && input.categoryId.value != "" then input.categoryId else None)
      && p.publishedAt == (if input.publishedAt.Some? then DateField(input.publishedAt.value, libs) else None)
      && p.views == 0 && !p.isFeatured && p.trendScore == 0 && p.tags == []
    ensures p.status == Published <==> input.status == Some("published")
    ensures p.status == Draft <==> input.status != Some("published")
  {
    var sanitized := libs.sanitize(input.contentHtml.value);
    var status := if input.status.Some? then ParseStatus(input.status.value).value else Draft;
    var category := if input.categoryId.Some? && input.categoryId.value != "" then input.categoryId else None;
    var date := if input.publishedAt.Some? then DateField(input.publishedAt.value, libs) else None;
    Post(id, user.id, input.title.value, input.subtitle, slug, sanitized, Summary(sanitized), ReadTime.DefaultReadTime(sanitized),
      input.bannerImageUrl, OrElse(input.imageUrls, []), category, [], status, date, 0, false, 0)
  }

  /** Appending a post whose id and slug no stored post has keeps both unique. */
  lemma AppendKeepsUnique(store: seq<Post>, post: Post)
    ensures SlugsUnique(store) && (forall j :: 0 <= j < |store| ==> store[j].slug != post.slug) ==> SlugsUnique(store + [post])
    ensures IdsUnique(store) && (forall j :: 0 <= j < |store| ==> store[j].id != post.id) ==> IdsUnique(store + [post])
  {
    var s := store + [post];
    assert forall j :: 0 <= j < |store| ==> s[j] == store[j];
  }

  /**
   The field assignments of `updatePost` before the slug is recomputed:
   a supplied field replaces the stored one, an absent one leaves it, and
   `publishedAt: ""` clears the date. New content is sanitized and its
   reading time recomputed; the summary is left as it was.
   */
  function MergeFields(p: Post, input: PostInput, libs: Libraries): (q: Post)
    requires FieldsValid(input, libs)
    ensures q.id == p.id && q.author == p.author && q.slug == p.slug && q.summary == p.summary
    ensures q.views == p.views && q.isFeatured == p.isFeatured && q.trendScore == p.trendScore && q.tags == p.tags
    ensures input.title.None? ==> q.title == p.title
    ensures input.title.Some? ==> q.title == input.title.value
    ensures input.subtitle.None? ==> q.subtitle == p.subtitle
    ensures input.subtitle.Some? ==> q.subtitle == input.subtitle
    ensures input.contentHtml.None? ==> q.contentHtml == p.contentHtml && q.readingTimeMinutes == p.readingTimeMinutes
    ensures input.contentHtml.Some? ==> q.contentHtml == libs.sanitize(input.contentHtml.value)
    ensures input.contentHtml.Some? ==> q.readingTimeMinutes == ReadTime.DefaultReadTime(q.contentHtml)
    ensures input.bannerImageUrl.None? ==> q.bannerImageUrl == p.bannerImageUrl
    ensures input.bannerImageUrl.Some? ==> q.bannerImageUrl == input.bannerImageUrl
    ensures input.imageUrls.None? ==> q.imageUrls == p.imageUrls
    ensures input.imageUrls.Some? ==> q.imageUrls == input.imageUrls.value
    ensures input.categoryId.None? ==> q.category == p.category
    ensures input.categoryId.Some? ==> q.category == input.categoryId
    ensures input.status.None? ==> q.status == p.status
    ensures input.status.Some? ==> Some(q.status) == ParseStatus(input.status.value)
    ensures q.status == Scheduled ==> p.status == Scheduled
    ensures input.publishedAt.None? ==> q.publishedAt == p.publishedAt
    ensures input.publishedAt == Some("") ==> q.publishedAt.None?
    ensures input.publishedAt.Some? && input.publishedAt.value != "" ==> q.publishedAt == Some(libs.parseDate(input.publishedAt.value))
  {
    var content := if input.contentHtml.Some? then libs.sanitize(input.contentHtml.value) else p.contentHtml;
    var minutes := if input.contentHtml.Some? then ReadTime.DefaultReadTime(content) else p.readingTimeMinutes;
    var status := if input.status.Some? then ParseStatus(input.status.value).value else p.status;
    var date := if input.publishedAt.Some? then DateField(input.publishedAt.value, libs) else p.publishedAt;
    var p1 := p.(title := OrElse(input.title, p.title), subtitle := Override(input.subtitle, p.subtitle));
    var p2 := p1.(contentHtml := content, readingTimeMinutes := minutes);
    var p3 := p2.(bannerImageUrl := Override(input.bannerImageUrl, p.bannerImageUrl), imageUrls := OrElse(input.imageUrls, p.imageUrls));
    var p4 := p3.(category := Override(input.categoryId, p.category));
    p4.(status := status, publishedAt := date)
  }

  /** A supplied value, or the default when absent. */
  function OrElse<T>(o: Option<T>, d: T): T {
    if o.Some? then o.value else d
  }

  /** A supplied optional value replaces the stored one; an absent one keeps it. */
  function Override<T>(o: Option<T>, d: Option<T>): Option<T> {
    if o.Some? then o else d
  }

  /** The update with every field absent. */
  const NoChanges: PostInput := PostInput(None, None, None, None, None, None, None, None, None)

  /** An update that supplies nothing leaves the post as it was. */
  lemma MergeNothingIsIdentity(p: Post, libs: Libraries)
    ensures FieldsValid(NoChanges, libs)
    ensures MergeFields(p, NoChanges, libs) == p
  {
  }

  /** Every supplied field is taken from the request alone, so applying the same update twice changes nothing more. */
  lemma MergeIdempotent(p: Post, input: PostInput, libs: Libraries)
    requires FieldsValid(input, libs)
    ensures MergeFields(MergeFields(p, input, libs), input, libs) == MergeFields(p, input, libs)
  {
  }

  /** Looking up the post a request names, then the guard: 404 before 403. */
  function Authorize(store: seq<Post>, id: Id, user: Auth.Claims): (r: Result<nat>)
    ensures r == Err(NotFound) <==> FindPost(store, id).None?
    ensures r == Err(Forbidden) <==> FindPost(store, id).Some? && !CanModify(store[FindPost(store, id).value], user)
    ensures r.Ok? <==> FindPost(store, id).Some? && CanModify(store[FindPost(store, id).value], user)
    ensures r.Ok? ==> r.value == FindPost(store, id).value
  {
    match FindPost(store, id)
    case None => Err(NotFound)
    case Some(i) => if CanModify(store[i], user) then Ok(i) else Err(Forbidden)
  }

  /**
   `updatePost`: validation (422), lookup (404), the guard (403), the field
   merge, and, only when a title is supplied, a new slug probed with the
   post's own id excluded.
   */
  method UpdatePost(store: seq<Post>, id: Id, input: PostInput, user: Auth.Claims, libs: Libraries) returns (r: Result<Saved>)
    ensures r == Err(ValidationError) <==> !FieldsValid(input, libs)
    ensures FieldsValid(input, libs) ==> (r.Err? <==> Authorize(store, id, user).Err?)
    ensures FieldsValid(input, libs) && r.Err? ==> r.error == Authorize(store, id, user).error
    ensures r.Ok? ==>
      && FieldsValid(input, libs) && Authorize(store, id, user).Ok?
      && var i := Authorize(store, id, user).value;
      && r.value.store == store[i := r.value.post]
      && r.value.post == MergeFields(store[i], input, libs).(slug := r.value.post.slug)
    ensures r.Ok? && input.title.None? ==> r.value.post.slug == store[Authorize(store, id, user).value].slug
    ensures r.Ok? && input.title.Some? ==> !Slugs.Taken(store, r.value.post.slug, Some(id))
    ensures r.Ok? && input.title.Some? && !Slugs.Taken(store, libs.slugify(input.title.value), Some(id)) ==>
      r.value.post.slug == libs.slugify(input.title.value)
    ensures r.Ok? && input.title.Some? && Slugs.Taken(store, libs.slugify(input.title.value), Some(id)) ==>
      exists n: nat :: n >= 1 && r.value.post.slug == Slugs.Candidate(libs.slugify(input.title.value), n) &&
        forall m: nat :: 1 <= m < n ==> Slugs.Taken(store, Slugs.Candidate(libs.slugify(input.title.value), m), Some(id))
    ensures r.Ok? && SlugsUnique(store) && IdsUnique(store) ==> SlugsUnique(r.value.store)
    ensures r.Ok? && IdsUnique(store) ==> IdsUnique(r.value.store)
  {
    if !FieldsValid(input, libs) {
      return Err(ValidationError);
    }
    var found := Authorize(store, id, user);
    if found.Err? {
      return Err(found.error);
    }
    var i := found.value;
    var post := MergeFields(store[i], input, libs);
    if input.title.Some? {
      var slug := Slugs.AllocateSlug(store, libs.slugify(input.title.value), Some(id));
      post := post.(slug := slug);
    }
    var store' := store[i := post];
    if SlugsUnique(store) && IdsUnique(store) {
      forall j, k | 0 <= j < k < |store'|
        ensures store'[j].slug != store'[k].slug
      {
        if j == i || k == i {
          var other := if j == i then k else j;
          assert store[other].id != id;
        }
      }
    }
    return Ok(Saved(store', post));
  }

  /** `deletePost`: lookup, guard, then the post is removed and every other post stays in order. */
  function DeletePost(store: seq<Post>, id: Id, user: Auth.Claims): (r: Result<seq<Post>>)
    ensures r.Err? <==> Authorize(store, id, user).Err?
    ensures r.Err? ==> r.error == Authorize(store, id, user).error
    ensures r.Ok? ==> |r.value| == |store| - 1
    ensures r.Ok? ==> forall j :: 0 <= j < |store| && j != Authorize(store, id, user).value ==> store[j] in r.value
    ensures r.Ok? ==> forall j :: 0 <= j < Authorize(store, id, user).value ==> r.value[j] == store[j]
    ensures r.Ok? ==> forall j :: Authorize(store, id, user).value < j < |store| ==> r.value[j - 1] == store[j]
    ensures r.Ok? && IdsUnique(store) ==> FindPost(r.value, id).None?
  {
    match Authorize(store, id, user)
    case Err(e) => Err(e)
    case Ok(i) =>
      RemoveAtDropsId(store, i);
      Ok(RemoveAt(store, i))
  }

  /** `deleteOne`: the store without the post at `i`, every other post kept in order. */
  function RemoveAt(store: seq<Post>, i: nat): (r: seq<Post>)
    requires i < |store|
    ensures |r| == |store| - 1
    ensures forall j :: 0 <= j < i ==> r[j] == store[j]
    ensures forall j :: i < j < |store| ==> r[j - 1] == store[j]
  {
    store[..i] + store[i + 1..]
  }

  /** With unique ids, removing the post at `i` leaves no post with its id. */
  lemma RemoveAtDropsId(store: seq<Post>, i: nat)
    requires i < |store|
    ensures IdsUnique(store) ==> FindPost(RemoveAt(store, i), store[i].id).None?
  {
    var r := RemoveAt(store, i);
    forall k | 0 <= k < |r| && IdsUnique(store)
      ensures r[k].id != store[i].id
    {
      if k < i {
        assert r[k] == store[k];
      } else {
        assert r[k] == store[k + 1];
      }
    }
  }

  /**
   `publishPost`: lookup, guard, then the same change the publish tick
   makes: the post becomes published and keeps any date it has.
   */
  function PublishPost(store: seq<Post>, id: Id, user: Auth.Claims, now: Millis): (r: Result<Saved>)
    ensures r.Err? <==> Authorize(store, id, user).Err?
    ensures r.Err? ==> r.error == Authorize(store, id, user).error
    ensures r.Ok? ==>
      var i := Authorize(store, id, user).value;
      && r.value.post.id == id
      && r.value.post.status == Published
      && (store[i].publishedAt.Some? ==> r.value.post.publishedAt == store[i].publishedAt)
      && (store[i].publishedAt.None? ==> r.value.post.publishedAt == Some(now))
      && r.value.post.(status := store[i].status, publishedAt := store[i].publishedAt) == store[i]
      && r.value.store == store[i := r.value.post]
  {
    match Authorize(store, id, user)
    case Err(e) => Err(e)
    case Ok(i) =>
      var q := Publisher.MarkPublished(store[i], now);
      Ok(Saved(store[i := q], q))
  }

  /** A request that fails the lookup or the guard changes nothing: every handler answers with an error and no new store. */
  lemma GuardFailureChangesNothing(store: seq<Post>, id: Id, user: Auth.Claims, now: Millis)
    requires FindPost(store, id).Some? ==> !CanModify(store[FindPost(store, id).value], user)
    ensures DeletePost(store, id, user).Err?
    ensures PublishPost(store, id, user, now).Err?
  {
  }

  // ---------------------------------------------------------------------
  // The public list

  /** The filtering part of the `listPosts` query string. */
  datatype Criteria = Criteria(
    category: Option<string>,
    tag: Option<string>,
    search: Option<string>,
    authorId: Option<Id>)

  /** The query string of `listPosts`, with `page` and `limit` already read as integers. */
  datatype ListQuery = ListQuery(page: Option<int>, limit: Option<int>, sort: Option<string>, criteria: Criteria)

  datatype SortMode = Latest | Featured | Trending

  /** `z.enum(['latest', 'trending', 'featured']).optional()`. */
  function ParseSort(s: Option<string>): (r: Result<SortMode>)
    ensures r.Err? ==> r.error == ValidationError
    ensures r.Err? <==> s.Some? && s.value != "latest" && s.value != "featured" && s.value != "trending"
    ensures r == Ok(Latest) <==> s.None? || s == Some("latest")
  {
    match s
    case None => Ok(Latest)
    case Some(v) =>
      if v == "latest" then Ok(Latest)
      else if v == "featured" then Ok(Featured)
      else if v == "trending" then Ok(Trending)
      else Err(ValidationError)
  }

  function SortKey(mode: SortMode): Post -> Key {
    match mode
    case Latest => DateKey
    case Featured => FeaturedKey
    case Trending => TrendKey
  }

  /** The `filter` object of `listPosts`, which is also what `total` counts. */
  predicate ListFilter(c: Criteria, p: Post) {
    && IsPublished(p)
    && (Given(c.category) ==> p.category == c.category)
    && (Given(c.tag) ==> c.tag.value in p.tags)
    && (c.authorId.Some? ==> p.author == c.authorId.value)
  }

  /** The `$text` clause added to the data query only. */
  predicate SearchClause(c: Criteria, textMatch: (Post, string) -> bool, p: Post) {
    Given(c.search) ==> textMatch(p, c.search.value)
  }

  /** The rows the data query selects before sorting and paging. */
  function Matches(store: seq<Post>, c: Criteria, textMatch: (Post, string) -> bool): (r: seq<Post>)
    ensures forall k :: 0 <= k < |r| ==> r[k] in store && ListFilter(c, r[k]) && SearchClause(c, textMatch, r[k])
    ensures forall j :: 0 <= j < |store| && ListFilter(c, store[j]) && SearchClause(c, textMatch, store[j]) ==> store[j] in r
    ensures |r| == Paging.Count(store, p => ListFilter(c, p) && SearchClause(c, textMatch, p))
  {
    Paging.CountIsFilterLength(store, p => ListFilter(c, p) && SearchClause(c, textMatch, p));
    Paging.Filter(store, p => ListFilter(c, p) && SearchClause(c, textMatch, p))
  }

  /**
   `listPosts`. The data query is the filter plus the text clause, sorted by
   the chosen order and paged; `total` counts the filter alone.
   */
  function ListPosts(store: seq<Post>, q: ListQuery, textMatch: (Post, string) -> bool): (r: Result<Paging.Listing<Post>>)
    ensures r.Err? <==> ParseSort(q.sort).Err?
    ensures r.Err? ==> r.error == ValidationError
    ensures r.Ok? ==> r.value.page >= 1 && 1 <= r.value.limit <= 50 && |r.value.data| <= r.value.limit
    ensures r.Ok? ==> r.value.page == Paging.ClampPage(q.page) && r.value.limit == Paging.ClampLimit(q.limit, 10, 50)
    ensures r.Ok? ==> q.page.None? ==> r.value.page == 1
    ensures r.Ok? ==> q.page.Some? && q.page.value >= 1 ==> r.value.page == q.page.value
    ensures r.Ok? ==> q.limit.None? ==> r.value.limit == 10
    ensures r.Ok? ==> q.limit.Some? && 1 <= q.limit.value <= 50 ==> r.value.limit == q.limit.value
    ensures r.Ok? ==> Paging.IsPageOf(r.value.data,
      SortDesc(Matches(store, q.criteria, textMatch), SortKey(ParseSort(q.sort).value)), r.value.page, r.value.limit)
    ensures r.Ok? ==> forall k :: 0 <= k < |r.value.data| ==>
      r.value.data[k] in store && ListFilter(q.criteria, r.value.data[k]) && SearchClause(q.criteria, textMatch, r.value.data[k])
    ensures r.Ok? ==> SortedDesc(r.value.data, SortKey(ParseSort(q.sort).value))
    ensures r.Ok? ==> r.value.total == Paging.Count(store, p => ListFilter(q.criteria, p))
  {
    match ParseSort(q.sort)
    case Err(e) => Err(e)
    case Ok(mode) =>
      var page := Paging.ClampPage(q.page);
      var limit := Paging.ClampLimit(q.limit, 10, 50);
      var data := Paging.SortedPage(Matches(store, q.criteria, textMatch), SortKey(mode), page, limit);
      Ok(Paging.Listing(data, page, limit, Paging.Count(store, p => ListFilter(q.criteria, p))))
  }

  /** Paging through `listPosts` reaches every published post that matches the query. */
  lemma ListPostsReachesEveryMatch(store: seq<Post>, q: ListQuery, textMatch: (Post, string) -> bool, j: nat)
    requires ParseSort(q.sort).Ok?
    requires j < |store| && ListFilter(q.criteria, store[j]) && SearchClause(q.criteria, textMatch, store[j])
    ensures exists page :: page >= 1 && store[j] in ListPosts(store, q.(page := Some(page)), textMatch).value.data
  {
    var limit := Paging.ClampLimit(q.limit, 10, 50);
    var matches := Matches(store, q.criteria, textMatch);
    Paging.EveryItemOnSomePage(matches, SortKey(ParseSort(q.sort).value), limit, store[j]);
    var page :| page >= 1 && store[j] in Paging.SortedPage(matches, SortKey(ParseSort(q.sort).value), page, limit);
    assert ListPosts(store, q.(page := Some(page)), textMatch).value.data
      == Paging.SortedPage(matches, SortKey(ParseSort(q.sort).value), page, limit);
  }

  /** No page holds more rows than `total`, though with a search `total` may count rows no page shows. */
  lemma ListPostsPageWithinTotal(store: seq<Post>, q: ListQuery, textMatch: (Post, string) -> bool)
    requires ParseSort(q.sort).Ok?
    ensures |ListPosts(store, q, textMatch).value.data| <= ListPosts(store, q, textMatch).value.total
  {
    var c := q.criteria;
    Paging.CountMonotone(store, p => ListFilter(c, p) && SearchClause(c, textMatch, p), p => ListFilter(c, p));
  }

  // ---------------------------------------------------------------------
  // Reading one post

  /** Index of the first post with the given slug, whatever its status (`findOneAndUpdate({ slug })`). */
  function FindBySlug(store: seq<Post>, slug: string): (r: Option<nat>)
    ensures r.Some? ==> r.value < |store| && store[r.value].slug == slug
    ensures r.Some? ==> forall j :: 0 <= j < r.value ==> store[j].slug != slug
    ensures r.None? <==> forall j :: 0 <= j < |store| ==> store[j].slug != slug
  {
    FindFirst(store, (p: Post) => p.slug == slug)
  }

  /** `q` is published with a date strictly before `p`'s (`publishedAt: { $lt: post.publishedAt }`). */
  predicate PublishedBefore(q: Post, p: Post) {
    IsPublished(q) && p.publishedAt.Some? && q.publishedAt.Some? && q.publishedAt.value < p.publishedAt.value
  }

  /** `q` is published with a date strictly after `p`'s. */
  predicate PublishedAfter(q: Post, p: Post) {
    IsPublished(q) && p.publishedAt.Some? && q.publishedAt.Some? && q.publishedAt.value > p.publishedAt.value
  }

  /** The `readNext` filter: another published post in the same category. */
  predicate Related(q: Post, p: Post) {
    IsPublished(q) && q.id != p.id && q.category == p.category
  }

  /** The first element of the descending order, if there is one (`findOne(...).sort(...)`). */
  function First(s: seq<Post>, key: Post -> Key): (r: Option<Post>)
    ensures r.None? <==> s == []
    ensures r.Some? ==> r.value in s && forall x :: x in s ==> KeyGe(key(r.value), key(x))
  {
    if s == [] then None
    else
      var top := TopBy(s, key, 1);
      assert top[0] in multiset(s);
      forall x | x in s
        ensures KeyGe(key(top[0]), key(x))
      {
        if x != top[0] {
          assert x in multiset(s);
          assert x !in multiset(top);
          assert x in multiset(s) - multiset(top);
        } else {
          assert KeyGe(key(x), key(x));
        }
      }
      Some(top[0])
  }

  /** What `getBySlug` answers: the store after the view bump, the post, its neighbours and the related posts. */
  datatype SlugView = SlugView(store: seq<Post>, post: Post, previous: Option<Post>, next: Option<Post>, readNext: seq<Post>)

  /**
   `getBySlug`. The first post with the slug, published or not, has its
   view count raised by one; `previous` and `next` are the published posts
   nearest before and after it by date, and `readNext` at most five other
   published posts of its category, by trend score.
   */
  function GetBySlug(store: seq<Post>, slug: string): (r: Result<SlugView>)
    ensures r.Err? <==> FindBySlug(store, slug).None?
    ensures r.Err? ==> r.error == NotFound
    ensures r.Ok? ==>
      var i := FindBySlug(store, slug).value;
      && r.value.post == store[i].(views := store[i].views + 1)
      && r.value.store == store[i := r.value.post]
  {
    match FindBySlug(store, slug)
    case None => Err(NotFound)
    case Some(i) =>
      var p := store[i].(views := store[i].views + 1);
      var s := store[i := p];
      Ok(SlugView(s, p, Previous(s, p), Next(s, p), ReadNext(s, p)))
  }

  /** The `previous` query: latest published post dated before `p`. */
  function Previous(s: seq<Post>, p: Post): Option<Post> {
    First(Paging.Filter(s, q => PublishedBefore(q, p)), DateKey)
  }

  /** The `next` query: earliest published post dated after `p`. */
  function Next(s: seq<Post>, p: Post): Option<Post> {
    First(Paging.Filter(s, q => PublishedAfter(q, p)), DateAscKey)
  }

  /** The `readNext` query: top five related posts by trend score. */
  function ReadNext(s: seq<Post>, p: Post): seq<Post> {
    TopBy(Paging.Filter(s, q => Related(q, p)), TrendKey, 5)
  }

  /** `previous` is the latest published post dated strictly before the post; there is none only when no such post exists. */
  lemma PreviousIsNearestEarlier(store: seq<Post>, slug: string)
    requires GetBySlug(store, slug).Ok?
    ensures var v := GetBySlug(store, slug).value;
      && (v.previous.None? <==> forall j :: 0 <= j < |v.store| ==> !PublishedBefore(v.store[j], v.post))
      && (v.previous.Some? ==> v.previous.value in v.store && PublishedBefore(v.previous.value, v.post))
      && (v.previous.Some? ==> forall j :: 0 <= j < |v.store| && PublishedBefore(v.store[j], v.post) ==>
            v.store[j].publishedAt.value <= v.previous.value.publishedAt.value)
  {
    var v := GetBySlug(store, slug).value;
    var cands := Paging.Filter(v.store, q => PublishedBefore(q, v.post));
    if v.previous.Some? {
      forall j | 0 <= j < |v.store| && PublishedBefore(v.store[j], v.post)
        ensures v.store[j].publishedAt.value <= v.previous.value.publishedAt.value
      {
        assert v.store[j] in cands;
        DateKeyOrder(v.previous.value, v.store[j]);
      }
    }
  }

  /** `next` is the earliest published post dated strictly after the post; there is none only when no such post exists. */
  lemma NextIsNearestLater(store: seq<Post>, slug: string)
    requires GetBySlug(store, slug).Ok?
    ensures var v := GetBySlug(store, slug).value;
      && (v.next.None? <==> forall j :: 0 <= j < |v.store| ==> !PublishedAfter(v.store[j], v.post))
      && (v.next.Some? ==> v.next.value in v.store && PublishedAfter(v.next.value, v.post))
      && (v.next.Some? ==> forall j :: 0 <= j < |v.store| && PublishedAfter(v.store[j], v.post) ==>
            v.next.value.publishedAt.value <= v.store[j].publishedAt.value)
  {
    var v := GetBySlug(store, slug).value;
    var cands := Paging.Filter(v.store, q => PublishedAfter(q, v.post));
    if v.next.Some? {
      forall j | 0 <= j < |v.store| && PublishedAfter(v.store[j], v.post)
        ensures v.next.value.publishedAt.value <= v.store[j].publishedAt.value
      {
        assert v.store[j] in cands;
        DateAscKeyOrder(v.next.value, v.store[j]);
      }
    }
  }

  /**
   `readNext` holds the first five published posts of the same category, or
   all of them when there are fewer, never the post itself, highest trend score first, and no related post
   left out scores above one that is listed.
   */
  lemma ReadNextSelection(store: seq<Post>, slug: string)
    requires GetBySlug(store, slug).Ok?
    ensures var v := GetBySlug(store, slug).value;
      && |v.readNext| <= 5
      && |v.readNext| == (var related := Paging.Count(v.store, q => Related(q, v.post)); if related < 5 then related else 5)
      && (forall k :: 0 <= k < |v.readNext| ==> Related(v.readNext[k], v.post) && v.readNext[k] in v.store)
      && (forall k :: 0 <= k < |v.readNext| ==> v.readNext[k].id != v.post.id)
      && SortedDesc(v.readNext, TrendKey)
      && (forall j, k :: 0 <= j < |v.store| && 0 <= k < |v.readNext| && Related(v.store[j], v.post) && v.store[j] !in v.readNext ==>
            v.store[j].trendScore <= v.readNext[k].trendScore)
  {
    var v := GetBySlug(store, slug).value;
    var cands := Paging.Filter(v.store, q => Related(q, v.post));
    Paging.CountIsFilterLength(v.store, q => Related(q, v.post));
    TopByMembers(cands, TrendKey, 5);
    forall j, k | 0 <= j < |v.store| && 0 <= k < |v.readNext| && Related(v.store[j], v.post) && v.store[j] !in v.readNext
      ensures v.store[j].trendScore <= v.readNext[k].trendScore
    {
      assert v.store[j] in cands;
      TopByLeftOut(cands, TrendKey, 5, v.store[j], k);
    }
  }
}

=== FILE: publisher.dfy ===
/**
 The publish tick (`runPublishTick`): select the scheduled posts whose
 `publishedAt` is at or before `now`, at most 50 of them in the store's
 natural order, flip each to `published` and save it, and report how many
 were saved. The clock is the parameter `now`; the cron timer around the
 tick is not modelled.

 A save can throw. The posts whose save throws are the parameter `failing`;
 the first throw abandons the rest of the batch, and the posts saved before
 it stay published.
 */
module Publisher {
  import opened Domain

  const BatchSize: nat := 50

  /** `{ status: 'scheduled', publishedAt: { $lte: now } }`; a missing date never matches `$lte`. */
  predicate Due(p: Post, now: Millis) {
    p.status == Scheduled && p.publishedAt.Some? && p.publishedAt.value <= now
  }

  /** The number of due posts in `s`. */
  function DueCount(s: seq<Post>, now: Millis): (n: nat)
    ensures n <= |s|
  {
    if s == [] then 0 else DueCount(s[..|s| - 1], now) + (if Due(s[|s| - 1], now) then 1 else 0)
  }

  /** Post `i` is in the batch: it is due and fewer than 50 due posts precede it (`.limit(50)`). */
  predicate Selected(s: seq<Post>, now: Millis, i: int) {
    0 <= i < |s| && Due(s[i], now) && DueCount(s[..i], now) < BatchSize
  }

  /** The indices of the selected posts among the first `n`, in order. */
  function BatchUpTo(s: seq<Post>, now: Millis, n: nat): (b: seq<nat>)
    requires n <= |s|
    ensures |b| == if DueCount(s[..n], now) < BatchSize then DueCount(s[..n], now) else BatchSize
    ensures forall k :: 0 <= k < |b| ==> b[k] < n && Selected(s, now, b[k])
    ensures forall i :: 0 <= i < n && Selected(s, now, i) ==> i in b
    ensures forall k, l :: 0 <= k < l < |b| ==> b[k] < b[l]
  {
    if n == 0 then []
    else
      DueCountStep(s, now, n);
      var b := BatchUpTo(s, now, n - 1);
      if Selected(s, now, n - 1) then b + [n - 1] else b
  }

  /** The batch the query returns. */
  function Batch(s: seq<Post>, now: Millis): (b: seq<nat>)
    ensures |b| <= BatchSize
    ensures forall k :: 0 <= k < |b| ==> Selected(s, now, b[k])
    ensures forall i :: Selected(s, now, i) ==> i in b
    ensures forall k, l :: 0 <= k < l < |b| ==> b[k] < b[l]
  {
    assert s[..|s|] == s;
    BatchUpTo(s, now, |s|)
  }

  /**
   The change publishing makes to one post, in the tick's loop and in
   `publishPost` alike: `status = 'published'`, and `publishedAt = now` only
   when it is unset. An existing date, even a future one, is kept.
   */
  function MarkPublished(p: Post, now: Millis): (q: Post)
    ensures q.status == Published
    ensures p.publishedAt.Some? ==> q.publishedAt == p.publishedAt
    ensures p.publishedAt.None? ==> q.publishedAt == Some(now)
    ensures q == p.(status := q.status, publishedAt := q.publishedAt)
  {
    p.(status := Published, publishedAt := if p.publishedAt.None? then Some(now) else p.publishedAt)
  }

  /** Publishing twice, at any two times, is the same as publishing once. */
  lemma MarkPublishedIdempotent(p: Post, now: Millis, later: Millis)
    ensures MarkPublished(MarkPublished(p, now), later) == MarkPublished(p, now)
  {
  }

  /** The store after the posts at indices `done` have been saved. */
  function ApplySaves(s: seq<Post>, done: seq<nat>, now: Millis): (t: seq<Post>)
    ensures |t| == |s|
  {
    seq(|s|, i requires 0 <= i < |s| => if i in done then MarkPublished(s[i], now) else s[i])
  }

  lemma ApplySavesNone(s: seq<Post>, done: seq<nat>, now: Millis)
    requires done == []
    ensures ApplySaves(s, done, now) == s
  {
  }

  /** Saving one more post updates exactly that post of the store. */
  lemma ApplySavesStep(s: seq<Post>, done: seq<nat>, i: nat, now: Millis)
    requires i < |s|
    ensures ApplySaves(s, done + [i], now) == ApplySaves(s, done, now)[i := MarkPublished(s[i], now)]
  {
    var a, b := ApplySaves(s, done + [i], now), ApplySaves(s, done, now)[i := MarkPublished(s[i], now)];
    forall j | 0 <= j < |s| ensures a[j] == b[j] {
      assert j in done + [i] <==> j in done || j == i;
    }
  }

  /** How many posts of the batch are saved before the first save that throws. */
  function SavedBeforeFailure(s: seq<Post>, b: seq<nat>, failing: set<Id>): (k: nat)
    requires forall k :: 0 <= k < |b| ==> b[k] < |s|
    ensures k <= |b|
    ensures forall m :: 0 <= m < k ==> s[b[m]].id !in failing
    ensures k < |b| ==> s[b[k]].id in failing
  {
    if b == [] then 0
    else if s[b[0]].id in failing then 0
    else 1 + SavedBeforeFailure(s, b[1..], failing)
  }

  /** Saving the first `k` of increasing indices `b` publishes exactly those posts. */
  lemma SavedPrefixStore(s: seq<Post>, b: seq<nat>, k: nat, now: Millis)
    requires forall j :: 0 <= j < |b| ==> b[j] < |s|
    requires forall j, l :: 0 <= j < l < |b| ==> b[j] < b[l]
    requires k <= |b|
    ensures forall m :: 0 <= m < |b| ==>
      ApplySaves(s, b[..k], now)[b[m]] == if m < k then MarkPublished(s[b[m]], now) else s[b[m]]
    ensures forall i :: 0 <= i < |s| && i !in b ==> ApplySaves(s, b[..k], now)[i] == s[i]
  {
    forall m | 0 <= m < |b|
      ensures ApplySaves(s, b[..k], now)[b[m]] == if m < k then MarkPublished(s[b[m]], now) else s[b[m]]
    {
      SavedPrefixApplied(s, b, k, m, now);
    }
    forall i | 0 <= i < |s| && i !in b
      ensures ApplySaves(s, b[..k], now)[i] == s[i]
    {
      assert i !in b[..k];
    }
  }

  /** In increasing batch indices, the post at the `m`-th is saved exactly when `m` lies in the saved prefix. */
  lemma SavedPrefixApplied(s: seq<Post>, b: seq<nat>, k: nat, m: nat, now: Millis)
    requires forall j :: 0 <= j < |b| ==> b[j] < |s|
    requires forall j, l :: 0 <= j < l < |b| ==> b[j] < b[l]
    requires k <= |b| && m < |b|
    ensures ApplySaves(s, b[..k], now)[b[m]] == if m < k then MarkPublished(s[b[m]], now) else s[b[m]]
  {
    if m < k {
      assert b[..k][m] == b[m];
    } else {
      forall j | 0 <= j < k
        ensures b[..k][j] != b[m]
      {
        assert b[j] < b[m];
      }
    }
  }

  /** `{ published: count }` on success; a thrown save after `saved` posts otherwise. */
  datatype TickOutcome = Completed(published: nat) | Aborted(saved: nat)

  datatype TickResult = TickResult(store: seq<Post>, outcome: TickOutcome)

  /** The tick as a whole, stated declaratively over the batch. */
  function Tick(s: seq<Post>, now: Millis, failing: set<Id>): (r: TickResult)
    ensures |r.store| == |s|
    ensures r.outcome.Completed? <==> forall k :: 0 <= k < |Batch(s, now)| ==> s[Batch(s, now)[k]].id !in failing
    ensures r.outcome.Completed? ==> r.outcome.published == |Batch(s, now)|
    ensures r.outcome.Aborted? ==> r.outcome.saved < |Batch(s, now)| && s[Batch(s, now)[r.outcome.saved]].id in failing
    ensures r.outcome.Aborted? ==> forall m :: 0 <= m < r.outcome.saved ==> s[Batch(s, now)[m]].id !in failing
    ensures forall m :: 0 <= m < |Batch(s, now)| ==>
      r.store[Batch(s, now)[m]] == if m < SavedCount(r.outcome) then MarkPublished(s[Batch(s, now)[m]], now) else s[Batch(s, now)[m]]
    ensures forall i :: 0 <= i < |s| && !Selected(s, now, i) ==> r.store[i] == s[i]
  {
    var b := Batch(s, now);
    var k := SavedBeforeFailure(s, b, failing);
    SavedPrefixStore(s, b, k, now);
    TickResult(ApplySaves(s, b[..k], now), if k == |b| then Completed(k) else Aborted(k))
  }

  /** `runPublishTick` as the source writes it: query, early return, then the save loop. */
  method RunPublishTick(store: seq<Post>, now: Millis, failing: set<Id>) returns (store': seq<Post>, outcome: TickOutcome)
    ensures TickResult(store', outcome) == Tick(store, now, failing)
  {
    var toPublish := SelectDue(store, now);
    if |toPublish| == 0 {
      ApplySavesNone(store, toPublish[..0], now);
      return store, Completed(0);
    }
    store' := store;
    var count := 0;
    while count < |toPublish|
      invariant count <= |toPublish|
      invariant forall m :: 0 <= m < count ==> store[toPublish[m]].id !in failing
      invariant store' == ApplySaves(store, toPublish[..count], now)
    {
      var i := toPublish[count];
      if store[i].id in failing {
        assert SavedBeforeFailure(store, toPublish, failing) == count by {
          SavedBeforeFailureIsFirst(store, toPublish, failing, count);
        }
        outcome := Aborted(count);
        return;
      }
      store' := store'[i := MarkPublished(store[i], now)];
      assert toPublish[..count + 1] == toPublish[..count] + [i];
      ApplySavesStep(store, toPublish[..count], i, now);
      count := count + 1;
    }
    assert toPublish[..count] == toPublish;
    SavedBeforeFailureIsFirst(store, toPublish, failing, count);
    outcome := Completed(count);
  }

  /** The selection query: scans the store and keeps due posts until 50 are held. */
  method SelectDue(store: seq<Post>, now: Millis) returns (batch: seq<nat>)
    ensures batch == Batch(store, now)
  {
    batch := [];
    var i := 0;
    while i < |store|
      invariant i <= |store|
      invariant batch == BatchUpTo(store, now, i)
    {
      assert store[..i + 1][..i] == store[..i];
      if Due(store[i], now) && |batch| < BatchSize {
        batch := batch + [i];
      }
      i := i + 1;
    }
    assert store[..|store|] == store;
  }

  lemma SavedBeforeFailureIsFirst(s: seq<Post>, b: seq<nat>, failing: set<Id>, k: nat)
    requires forall m :: 0 <= m < |b| ==> b[m] < |s|
    requires k <= |b|
    requires forall m :: 0 <= m < k ==> s[b[m]].id !in failing
    requires k < |b| ==> s[b[k]].id in failing
    ensures SavedBeforeFailure(s, b, failing) == k
  {
  }

  /** The indices at which two stores of equal length differ. */
  function ChangedAt(s: seq<Post>, t: seq<Post>): set<nat>
    requires |s| == |t|
  {
    set i: nat | i < |s| && t[i] != s[i]
  }

  /** The number of posts the outcome reports as saved. */
  function SavedCount(o: TickOutcome): nat {
    match o
    case Completed(n) => n
    case Aborted(n) => n
  }

  /** The indices listed in `c`. */
  function Elems(c: seq<nat>): (r: set<nat>)
    ensures forall x :: x in r <==> x in c
  {
    if c == [] then {} else Elems(c[..|c| - 1]) + {c[|c| - 1]}
  }

  lemma {:induction false} DistinctElementsCard(c: seq<nat>)
    requires forall k, l :: 0 <= k < l < |c| ==> c[k] < c[l]
    ensures |Elems(c)| == |c|
  {
    if c != [] {
      var init := c[..|c| - 1];
      DistinctElementsCard(init);
      assert c[|c| - 1] !in init;
    }
  }

  /** The tick changes exactly the posts it reports as saved, and no others. */
  lemma TickChangesExactlySaved(s: seq<Post>, now: Millis, failing: set<Id>)
    ensures var r := Tick(s, now, failing);
      |ChangedAt(s, r.store)| == SavedCount(r.outcome)
  {
    var b := Batch(s, now);
    var k := SavedBeforeFailure(s, b, failing);
    var r := Tick(s, now, failing);
    assert ChangedAt(s, r.store) == Elems(b[..k]);
    DistinctElementsCard(b[..k]);
  }

  /**
   Only posts of the batch change: a post that is not scheduled, is scheduled
   for later than `now`, or is due behind 50 earlier due posts, is untouched.
   */
  lemma TickTouchesOnlyBatch(s: seq<Post>, now: Millis, failing: set<Id>, i: nat)
    requires i < |s|
    requires !Due(s[i], now) || DueCount(s[..i], now) >= BatchSize
    ensures Tick(s, now, failing).store[i] == s[i]
  {
    assert !Selected(s, now, i);
    assert i !in Batch(s, now);
  }

  /** A tick never rewrites `publishedAt`: every selected post already had one. */
  lemma TickKeepsPublishedAt(s: seq<Post>, now: Millis, failing: set<Id>)
    ensures var r := Tick(s, now, failing);
      forall i :: 0 <= i < |s| ==> r.store[i].publishedAt == s[i].publishedAt
  {
    var b := Batch(s, now);
    var k := SavedBeforeFailure(s, b, failing);
    var r := Tick(s, now, failing);
    forall i | 0 <= i < |s|
      ensures r.store[i].publishedAt == s[i].publishedAt
    {
      if i in b[..k] {
        var m :| 0 <= m < k && b[..k][m] == i;
        assert Selected(s, now, b[m]);
      }
    }
  }

  /**
   A tick that completes publishes every selected post, and its count is the
   number of due posts, capped at 50. The boundary is inclusive: a post due
   exactly at `now` is selected when the cap allows.
   */
  lemma TickPublishesBatch(s: seq<Post>, now: Millis)
    ensures var r := Tick(s, now, {});
      && r.outcome.Completed?
      && r.outcome.published == (if DueCount(s, now) < BatchSize then DueCount(s, now) else BatchSize)
      && forall i :: Selected(s, now, i) ==> r.store[i].status == Published
  {
    var b := Batch(s, now);
    assert s[..|s|] == s;
    assert SavedBeforeFailure(s, b, {}) == |b|;
    assert b[..|b|] == b;
  }

  /** With nothing due the tick reports `{ published: 0 }` and leaves the store as it was. */
  lemma TickIdleWhenNothingDue(s: seq<Post>, now: Millis, failing: set<Id>)
    requires DueCount(s, now) == 0
    ensures Tick(s, now, failing) == TickResult(s, Completed(0))
  {
    assert s[..|s|] == s;
    assert |Batch(s, now)| == 0;
    assert ApplySaves(s, [], now) == s;
  }

  /** A tick aborted by a throwing save keeps the posts saved before it; the failing post is unchanged. */
  lemma TickAbortKeepsEarlierSaves(s: seq<Post>, now: Millis, failing: set<Id>)
    requires Tick(s, now, failing).outcome.Aborted?
    ensures var r := Tick(s, now, failing); var b := Batch(s, now); var k := r.outcome.saved;
      && k < |b|
      && s[b[k]].id in failing
      && r.store[b[k]] == s[b[k]]
      && forall m :: 0 <= m < k ==> r.store[b[m]] == MarkPublished(s[b[m]], now)
  {
    var b := Batch(s, now);
    var k := SavedBeforeFailure(s, b, failing);
    assert b[k] !in b[..k];
  }

  /** Publishing the changed posts lowers the due count by exactly the number changed. */
  lemma {:induction false} DueCountAfterSaves(s: seq<Post>, t: seq<Post>, now: Millis, n: nat)
    requires |s| == |t| && n <= |s|
    requires forall i :: 0 <= i < |s| && t[i] != s[i] ==> Due(s[i], now) && !Due(t[i], now)
    ensures DueCount(t[..n], now) + |ChangedBelow(s, t, n)| == DueCount(s[..n], now)
  {
    if n > 0 {
      DueCountAfterSaves(s, t, now, n - 1);
      DueCountStep(s, now, n);
      DueCountStep(t, now, n);
      ChangedBelowStep(s, t, n);
    }
  }

  /** The indices below `n` at which two stores of equal length differ. */
  function ChangedBelow(s: seq<Post>, t: seq<Post>, n: nat): set<nat>
    requires |s| == |t| && n <= |s|
  {
    set i: nat | i < n && t[i] != s[i]
  }

  lemma DueCountStep(s: seq<Post>, now: Millis, n: nat)
    requires 0 < n <= |s|
    ensures DueCount(s[..n], now) == DueCount(s[..n - 1], now) + (if Due(s[n - 1], now) then 1 else 0)
  {
    assert s[..n][..n - 1] == s[..n - 1];
  }

  lemma ChangedBelowStep(s: seq<Post>, t: seq<Post>, n: nat)
    requires |s| == |t| && 0 < n <= |s|
    ensures |ChangedBelow(s, t, n)| == |ChangedBelow(s, t, n - 1)| + (if t[n - 1] != s[n - 1] then 1 else 0)
  {
    var before := ChangedBelow(s, t, n - 1);
    if t[n - 1] != s[n - 1] {
      assert ChangedBelow(s, t, n) == before + {n - 1};
    } else {
      assert ChangedBelow(s, t, n) == before;
    }
  }

  /**
   Each tick removes from the backlog exactly the posts it saved, so repeated
   ticks at a fixed `now` drain the due posts, and a tick that published
   fewer than 50 leaves none due: the next tick publishes 0 and changes nothing.
   */
  lemma TickDrainsBacklog(s: seq<Post>, now: Millis, failing: set<Id>)
    ensures var r := Tick(s, now, failing);
      && DueCount(r.store, now) == DueCount(s, now) - SavedCount(r.outcome)
      && (r.outcome == Completed(0) ==> DueCount(s, now) == 0)
      && (r.outcome.Completed? && r.outcome.published < BatchSize ==>
            DueCount(r.store, now) == 0 && Tick(r.store, now, failing) == TickResult(r.store, Completed(0)))
  {
    var r := Tick(s, now, failing);
    forall i | 0 <= i < |s| && r.store[i] != s[i]
      ensures Due(s[i], now) && !Due(r.store[i], now)
    {
      TickTouchesOnlyBatchContra(s, now, failing, i);
    }
    DueCountAfterSaves(s, r.store, now, |s|);
    assert s[..|s|] == s && r.store[..|r.store|] == r.store;
    assert ChangedAt(s, r.store) == ChangedBelow(s, r.store, |s|);
    TickChangesExactlySaved(s, now, failing);
    if r.outcome.Completed? {
      TickPublishesBatchAny(s, now, failing);
      if r.outcome.published < BatchSize {
        TickIdleWhenNothingDue(r.store, now, failing);
      }
    }
  }

  lemma TickTouchesOnlyBatchContra(s: seq<Post>, now: Millis, failing: set<Id>, i: nat)
    requires i < |s| && Tick(s, now, failing).store[i] != s[i]
    ensures Due(s[i], now) && !Due(Tick(s, now, failing).store[i], now)
  {
    var b := Batch(s, now);
    var k := SavedBeforeFailure(s, b, failing);
    assert i in b[..k];
  }

  lemma TickPublishesBatchAny(s: seq<Post>, now: Millis, failing: set<Id>)
    requires Tick(s, now, failing).outcome.Completed?
    ensures Tick(s, now, failing).outcome.published == (if DueCount(s, now) < BatchSize then DueCount(s, now) else BatchSize)
  {
    assert s[..|s|] == s;
  }
}

=== FILE: readtime.dfy ===
/**
 The reading-time calculator. `extractPlainText` runs four passes over the
 HTML: every `<[^>]+>` tag becomes a space, every `&nbsp;` becomes a space,
 every run of whitespace becomes one space, and the ends are trimmed.
 `computeReadTimeMinutesFromHtml` counts the space-separated words of that
 text and divides by the reading speed, rounding up.

 Whitespace is JavaScript's `\s` class, which is also the set `trim` removes.
 */
module ReadTime {
  import opened Domain
  import Paging

  predicate IsSpace(c: char) {
    || c == ' ' || c == '\t' || c == '\n' || c == '\U{B}' || c == '\U{C}' || c == '\r'
    || c == '\U{A0}' || c == '\U{1680}' || ('\U{2000}' <= c <= '\U{200A}')
    || c == '\U{2028}' || c == '\U{2029}' || c == '\U{202F}' || c == '\U{205F}'
    || c == '\U{3000}' || c == '\U{FEFF}'
  }

  // ---------------------------------------------------------------------
  // Pass 1: `replace(/<[^>]+>/g, rep)`

  /** Index of the first `c` in `s`, or `|s|` when there is none. */
  function IndexOf(s: string, c: char): (k: nat)
    ensures k <= |s|
    ensures forall j :: 0 <= j < k ==> s[j] != c
    ensures k < |s| ==> s[k] == c
  {
    if s == [] then 0 else if s[0] == c then 0 else 1 + IndexOf(s[1..], c)
  }

  /**
   Length of the tag `<[^>]+>` the regular expression matches at the start of
   `s`, or 0 when it matches nothing there. The greedy `[^>]+` runs to the
   first `>`, so a match needs a `>` after the `<` that is not the next character.
   */
  function TagLength(s: string): (n: nat)
    ensures n <= |s|
    ensures n > 0 ==> n >= 3 && s[0] == '<' && s[n - 1] == '>' && forall j :: 1 <= j < n - 1 ==> s[j] != '>'
  {
    if |s| >= 1 && s[0] == '<' then
      var j := IndexOf(s[1..], '>');
      if 1 <= j < |s| - 1 then j + 2 else 0
    else 0
  }

  /** When no tag starts at `s[0]`: either `s[0]` is no `<`, or a `>` follows at once, or none follows. */
  lemma NoTagHere(s: string)
    ensures TagLength(s) == 0 <==>
      (s == [] || s[0] != '<' || (|s| >= 2 && s[1] == '>') || '>' !in s[1..])
  {
    if |s| >= 1 && s[0] == '<' {
      var j := IndexOf(s[1..], '>');
      if j == |s| - 1 {
        assert forall k :: 0 <= k < |s[1..]| ==> s[1..][k] != '>';
      }
    }
  }

  /** No substring of `s` is a tag the pattern would match. */
  ghost predicate TagFree(s: string) {
    forall i :: 0 <= i < |s| ==> TagLength(s[i..]) == 0
  }

  /** `s.replace(/<[^>]+>/g, rep)`: scanning left to right, each tag becomes `rep`. */
  function ReplaceTags(s: string, rep: string): (r: string)
    decreases |s|
  {
    if s == [] then []
    else
      var n := TagLength(s);
      if n > 0 then rep + ReplaceTags(s[n..], rep) else [s[0]] + ReplaceTags(s[1..], rep)
  }

  /**
   The tag pass leaves no tag behind, even where removing one brings a `<`
   and a later `>` together: a `<` it keeps is followed at once by `>`, or by no `>` at all.
   */
  lemma {:induction false} ReplaceTagsLeavesNoTag(s: string, rep: string)
    requires '<' !in rep && '>' !in rep
    ensures TagFree(ReplaceTags(s, rep))
    ensures '>' !in s ==> '>' !in ReplaceTags(s, rep)
    ensures s != [] && s[0] == '>' ==> ReplaceTags(s, rep) != [] && ReplaceTags(s, rep)[0] == '>'
    decreases |s|
  {
    if s != [] {
      var n := TagLength(s);
      if n > 0 {
        var rest := ReplaceTags(s[n..], rep);
        ReplaceTagsLeavesNoTag(s[n..], rep);
        TagFreeAfterPrefix(rep, rest);
      } else {
        var rest := ReplaceTags(s[1..], rep);
        ReplaceTagsLeavesNoTag(s[1..], rep);
        NoTagHere(s);
        KeptCharTagFree(s[0], rest, s[1..]);
      }
    }
  }

  /** Prepending text without `<` to tag-free text keeps it tag-free. */
  lemma TagFreeAfterPrefix(pre: string, rest: string)
    requires '<' !in pre && TagFree(rest)
    ensures TagFree(pre + rest)
  {
    var r := pre + rest;
    forall i | 0 <= i < |r|
      ensures TagLength(r[i..]) == 0
    {
      if i < |pre| {
        assert r[i..][0] == pre[i];
      } else {
        assert r[i..] == rest[i - |pre|..];
      }
    }
  }

  /**
   A character kept in front of tag-free text: when it is a `<`, the text it
   came from either started with `>`, which the pass keeps, or had no `>`,
   so neither does the result.
   */
  lemma KeptCharTagFree(c: char, rest: string, source: string)
    requires TagFree(rest)
    requires c == '<' ==> (source != [] && source[0] == '>' && rest != [] && rest[0] == '>') || ('>' !in source && '>' !in rest)
    ensures TagFree([c] + rest)
  {
    var r := [c] + rest;
    forall i | 0 <= i < |r|
      ensures TagLength(r[i..]) == 0
    {
      if i == 0 {
        assert r[1..] == rest;
        NoTagHere(r);
      } else {
        assert r[i..] == rest[i - 1..];
      }
    }
  }

  /** Tag-freedom holds of every contiguous piece of tag-free text. */
  lemma TagFreeSlice(s: string, a: nat, b: nat, t: string)
    requires TagFree(s) && a <= b <= |s| && t == s[a..b]
    ensures TagFree(t)
  {
    forall i | 0 <= i < |t|
      ensures TagLength(t[i..]) == 0
    {
      var u, v := s[a + i..], t[i..];
      assert TagLength(u) == 0;
      NoTagHere(u);
      NoTagHere(v);
      assert u[0] == v[0];
      if |v| >= 2 {
        assert u[1] == v[1];
      }
      if '>' !in u[1..] {
        assert forall k :: 0 <= k < |v[1..]| ==> v[1..][k] == u[1..][k];
      }
    }
  }

  lemma TagFreeSuffix(s: string, n: nat)
    requires n <= |s| && TagFree(s)
    ensures TagFree(s[n..])
  {
    TagFreeSlice(s, n, |s|, s[n..]);
  }

  // ---------------------------------------------------------------------
  // Pass 2: `replace(/&nbsp;/g, ' ')`

  /** The entity `&nbsp;` occurs at position `i` of `s`. */
  predicate NbspAt(s: string, i: nat) {
    && i + 6 <= |s|
    && s[i] == '&' && s[i + 1] == 'n' && s[i + 2] == 'b'
    && s[i + 3] == 's' && s[i + 4] == 'p' && s[i + 5] == ';'
  }

  ghost predicate NbspFree(s: string) {
    forall i: nat :: i < |s| ==> !NbspAt(s, i)
  }

  /** `s.replace(/&nbsp;/g, ' ')`. */
  function ReplaceNbsp(s: string): (r: string)
    decreases |s|
  {
    if s == [] then []
    else if NbspAt(s, 0) then " " + ReplaceNbsp(s[6..])
    else [s[0]] + ReplaceNbsp(s[1..])
  }

  /** `NbspAt` seen from a suffix. */
  lemma NbspAtShift(s: string, n: nat, i: nat)
    requires n <= |s|
    ensures NbspAt(s[n..], i) <==> NbspAt(s, n + i)
  {
  }

  /** The `&nbsp;` pass leaves no `&nbsp;` behind. */
  lemma {:induction false} ReplaceNbspLeavesNone(s: string)
    ensures NbspFree(ReplaceNbsp(s))
    decreases |s|
  {
    if s != [] {
      var n := if NbspAt(s, 0) then 6 else 1;
      var rest := ReplaceNbsp(s[n..]);
      ReplaceNbspLeavesNone(s[n..]);
      if !NbspAt(s, 0) && s[0] == '&' && NbspAt([s[0]] + rest, 0) {
        NbspPrefixFromSource(s[1..], rest[..5]);
        NbspAtShift(s, 1, 0);
      }
      NbspFreeAfterChar(ReplaceNbsp(s)[0], rest);
    }
  }

  /**
   A prefix of the output that holds no space was copied from the input
   unchanged: a replacement always writes a space.
   */
  lemma {:induction false} NbspPrefixFromSource(t: string, p: string)
    requires |p| <= |ReplaceNbsp(t)| && ReplaceNbsp(t)[..|p|] == p && ' ' !in p
    ensures |p| <= |t| && t[..|p|] == p
    decreases |t|
  {
    if p != [] {
      var r := ReplaceNbsp(t);
      assert p[0] == r[0];
      if !NbspAt(t, 0) {
        var rest := ReplaceNbsp(t[1..]);
        assert r == [t[0]] + rest;
        assert rest[..|p| - 1] == p[1..];
        NbspPrefixFromSource(t[1..], p[1..]);
        assert t[..|p|] == [t[0]] + t[1..][..|p| - 1];
      }
    }
  }

  lemma NbspFreeAfterChar(c: char, rest: string)
    requires NbspFree(rest)
    requires !NbspAt([c] + rest, 0)
    ensures NbspFree([c] + rest)
  {
    var r := [c] + rest;
    forall i: nat | 0 < i < |r|
      ensures !NbspAt(r, i)
    {
      assert r[1..] == rest;
      NbspAtShift(r, 1, i - 1);
    }
  }

  /** The `&nbsp;` pass creates no tag: it writes no `<` and removes no `>`. */
  lemma {:induction false} ReplaceNbspKeepsTagFree(s: string)
    ensures '>' !in s ==> '>' !in ReplaceNbsp(s)
    ensures s != [] && s[0] == '>' ==> ReplaceNbsp(s) != [] && ReplaceNbsp(s)[0] == '>'
    ensures TagFree(s) ==> TagFree(ReplaceNbsp(s))
    decreases |s|
  {
    if s != [] {
      var n := if NbspAt(s, 0) then 6 else 1;
      var rest := ReplaceNbsp(s[n..]);
      ReplaceNbspKeepsTagFree(s[n..]);
      assert '>' !in s ==> '>' !in s[n..];
      if TagFree(s) {
        TagFreeSuffix(s, n);
        if NbspAt(s, 0) {
          TagFreeAfterPrefix(" ", rest);
        } else {
          assert s[0..] == s;
          NoTagHere(s);
          KeptCharTagFree(s[0], rest, s[1..]);
        }
      }
    }
  }

  lemma NbspFreeSlice(s: string, a: nat, b: nat, t: string)
    requires NbspFree(s) && a <= b <= |s| && t == s[a..b]
    ensures NbspFree(t)
  {
    forall i: nat | i < |t|
      ensures !NbspAt(t, i)
    {
      if NbspAt(t, i) {
        assert NbspAt(s, a + i);
      }
    }
  }

  // ---------------------------------------------------------------------
  // Pass 3: `replace(/\s+/g, ' ')`

  /** Every whitespace character is a plain space and no two whitespace characters touch. */
  ghost predicate Collapsed(s: string) {
    && (forall i :: 0 <= i < |s| && IsSpace(s[i]) ==> s[i] == ' ')
    && (forall i :: 0 <= i < |s| - 1 ==> !SpacePair(s, i))
  }

  /** Whitespace at `i` and again at `i + 1`. */
  predicate SpacePair(s: string, i: nat)
    requires i + 1 < |s|
  {
    IsSpace(s[i]) && IsSpace(s[i + 1])
  }

  /** `s` without its leading run of whitespace. */
  function DropSpaces(s: string): (r: string)
    ensures |r| <= |s| && r == s[|s| - |r|..]
    ensures r == [] || !IsSpace(r[0])
    ensures forall j :: 0 <= j < |s| - |r| ==> IsSpace(s[j])
  {
    if s != [] && IsSpace(s[0]) then DropSpaces(s[1..]) else s
  }

  /** `s.replace(/\s+/g, ' ')`: each maximal whitespace run becomes one space. */
  function CollapseSpaces(s: string): (r: string)
    ensures r == [] <==> s == []
    ensures s != [] ==> (IsSpace(r[0]) <==> IsSpace(s[0]))
    ensures s != [] && !IsSpace(s[0]) ==> r[0] == s[0]
    decreases |s|
  {
    if s == [] then []
    else if IsSpace(s[0]) then " " + CollapseSpaces(DropSpaces(s))
    else [s[0]] + CollapseSpaces(s[1..])
  }

  /** The whitespace pass leaves only single plain spaces. */
  lemma {:induction false} CollapseSpacesCollapses(s: string)
    ensures Collapsed(CollapseSpaces(s))
    decreases |s|
  {
    if s != [] {
      var t := if IsSpace(s[0]) then DropSpaces(s) else s[1..];
      var rest := CollapseSpaces(t);
      CollapseSpacesCollapses(t);
      var r := CollapseSpaces(s);
      assert r == [r[0]] + rest;
      assert forall i :: 1 <= i < |r| ==> r[i] == rest[i - 1];
      forall i | 0 <= i < |r| - 1
        ensures !SpacePair(r, i)
      {
        if i > 0 {
          assert !SpacePair(rest, i - 1);
        }
      }
    }
  }

  /** The whitespace pass writes no `>` of its own. */
  lemma {:induction false} CollapseSpacesKeepsNoGt(s: string)
    requires '>' !in s
    ensures '>' !in CollapseSpaces(s)
    decreases |s|
  {
    if s != [] {
      var t := if IsSpace(s[0]) then DropSpaces(s) else s[1..];
      assert '>' !in t;
      CollapseSpacesKeepsNoGt(t);
    }
  }

  /** The whitespace pass creates no tag: it writes no `<` and removes no `>`. */
  lemma {:induction false} CollapseSpacesKeepsTagFree(s: string)
    requires TagFree(s)
    ensures TagFree(CollapseSpaces(s))
    decreases |s|
  {
    if s != [] {
      var t := if IsSpace(s[0]) then DropSpaces(s) else s[1..];
      var rest := CollapseSpaces(t);
      TagFreeSuffix(s, |s| - |t|);
      CollapseSpacesKeepsTagFree(t);
      if IsSpace(s[0]) {
        TagFreeAfterPrefix(" ", rest);
      } else {
        assert s[0..] == s;
        NoTagHere(s);
        if s[0] == '<' && '>' !in t {
          CollapseSpacesKeepsNoGt(t);
        }
        KeptCharTagFree(s[0], rest, t);
      }
    }
  }

  /** The whitespace pass creates no `&nbsp;`: it only turns whitespace into spaces. */
  lemma {:induction false} CollapseSpacesKeepsNbspFree(s: string)
    requires NbspFree(s)
    ensures NbspFree(CollapseSpaces(s))
    decreases |s|
  {
    if s != [] {
      var t := if IsSpace(s[0]) then DropSpaces(s) else s[1..];
      var rest := CollapseSpaces(t);
      NbspFreeSlice(s, |s| - |t|, |s|, t);
      CollapseSpacesKeepsNbspFree(t);
      if !IsSpace(s[0]) && s[0] == '&' && NbspAt([s[0]] + rest, 0) {
        CollapsePrefixFromSource(s[1..], rest[..5]);
        assert NbspAt(s, 0);
      }
      NbspFreeAfterChar(CollapseSpaces(s)[0], rest);
    }
  }

  /** A prefix of the output that holds no whitespace was copied from the input unchanged. */
  lemma {:induction false} CollapsePrefixFromSource(t: string, p: string)
    requires |p| <= |CollapseSpaces(t)| && CollapseSpaces(t)[..|p|] == p
    requires forall j :: 0 <= j < |p| ==> !IsSpace(p[j])
    ensures |p| <= |t| && t[..|p|] == p
    decreases |t|
  {
    if p != [] {
      var rest := CollapseHead(t, p[0]);
      var tail := p[1..];
      assert rest[..|tail|] == tail by {
        assert CollapseSpaces(t) == [t[0]] + rest;
        forall j | 0 <= j < |tail| ensures rest[j] == tail[j] {
          assert CollapseSpaces(t)[j + 1] == p[j + 1];
        }
      }
      assert forall j :: 0 <= j < |tail| ==> !IsSpace(tail[j]) by {
        forall j | 0 <= j < |tail| ensures !IsSpace(tail[j]) {
          assert tail[j] == p[j + 1];
        }
      }
      CollapsePrefixFromSource(t[1..], tail);
      assert t[..|p|] == [t[0]] + t[1..][..|tail|];
    }
  }

  /** An output that starts with a non-whitespace character `c` copied `c` from the front of the input. */
  lemma CollapseHead(t: string, c: char) returns (rest: string)
    requires CollapseSpaces(t) != [] && CollapseSpaces(t)[0] == c && !IsSpace(c)
    ensures t != [] && t[0] == c && !IsSpace(t[0])
    ensures rest == CollapseSpaces(t[1..]) && CollapseSpaces(t) == [c] + rest
  {
    rest := CollapseSpaces(t[1..]);
  }

  // ---------------------------------------------------------------------
  // Pass 4: `trim()`

  /** `s` without its trailing run of whitespace. */
  function TrimEnd(s: string): (r: string)
    ensures |r| <= |s| && r == s[..|r|]
    ensures r == [] || !IsSpace(r[|r| - 1])
    ensures forall j :: |r| <= j < |s| ==> IsSpace(s[j])
  {
    if s != [] && IsSpace(s[|s| - 1]) then TrimEnd(s[..|s| - 1]) else s
  }

  /** How many whitespace characters `s` starts with. */
  function LeadingSpaces(s: string): (n: nat)
    ensures n <= |s|
    ensures forall j :: 0 <= j < n ==> IsSpace(s[j])
    ensures n < |s| ==> !IsSpace(s[n])
  {
    |s| - |DropSpaces(s)|
  }

  /**
   `s.trim()`: whitespace cut from both ends and nowhere else. The result is
   the piece of `s` that starts after its leading whitespace and ends
   without whitespace; `TrimCutsOnlyWhitespace` shows that what follows the
   piece is whitespace too.
   */
  function Trim(s: string): (r: string)
    ensures r == [] || (!IsSpace(r[0]) && !IsSpace(r[|r| - 1]))
    ensures LeadingSpaces(s) + |r| <= |s| && r == s[LeadingSpaces(s)..LeadingSpaces(s) + |r|]
  {
    var t := DropSpaces(s);
    var r := TrimEnd(t);
    assert r == s[|s| - |t|..|s| - |t| + |r|];
    r
  }

  /** All that `trim` cuts after the piece it keeps is whitespace. */
  lemma TrimCutsOnlyWhitespace(s: string)
    ensures forall j :: LeadingSpaces(s) + |Trim(s)| <= j < |s| ==> IsSpace(s[j])
  {
    var t := DropSpaces(s);
    var r := TrimEnd(t);
    var a := |s| - |t|;
    forall j | a + |r| <= j < |s|
      ensures IsSpace(s[j])
    {
      var i := j - a;
      assert |r| <= i < |t| && IsSpace(t[i]);
      assert s[j] == t[i];
    }
  }

  /** Collapsed text without whitespace at either end: what `extractPlainText` promises. */
  ghost predicate Normalized(s: string) {
    && Collapsed(s)
    && (s == [] || (!IsSpace(s[0]) && !IsSpace(s[|s| - 1])))
  }

  lemma CollapsedSlice(s: string, a: nat, b: nat, t: string)
    requires Collapsed(s) && a <= b <= |s| && t == s[a..b]
    ensures Collapsed(t)
  {
    assert forall i :: 0 <= i < |t| ==> t[i] == s[a + i];
    forall i | 0 <= i < |t| - 1
      ensures !SpacePair(t, i)
    {
      assert !SpacePair(s, a + i);
    }
  }

  // ---------------------------------------------------------------------
  // What the passes keep

  /** Text none of the four passes touches: no `<`, no `&` and no whitespace. */
  predicate Plain(w: string) {
    '<' !in w && '&' !in w && forall i :: 0 <= i < |w| ==> !IsSpace(w[i])
  }

  /** The tag pass copies a stretch without `<` unchanged. */
  lemma {:induction false} ReplaceTagsCopies(w: string, rest: string, rep: string)
    requires '<' !in w
    ensures ReplaceTags(w + rest, rep) == w + ReplaceTags(rest, rep)
    decreases |w|
  {
    if w == [] {
      assert w + rest == rest;
    } else {
      var s, tail := w + rest, w[1..];
      assert s[0] == w[0] && s[1..] == tail + rest;
      assert TagLength(s) == 0;
      assert '<' !in tail;
      ReplaceTagsCopies(tail, rest, rep);
      assert [w[0]] + tail == w;
    }
  }

  /** The `&nbsp;` pass copies a stretch without `&` unchanged. */
  lemma {:induction false} ReplaceNbspCopies(w: string, rest: string)
    requires '&' !in w
    ensures ReplaceNbsp(w + rest) == w + ReplaceNbsp(rest)
    decreases |w|
  {
    if w == [] {
      assert w + rest == rest;
    } else {
      var s, tail := w + rest, w[1..];
      assert s[0] == w[0] && s[1..] == tail + rest;
      assert !NbspAt(s, 0);
      assert '&' !in tail;
      ReplaceNbspCopies(tail, rest);
      assert [w[0]] + tail == w;
    }
  }

  /** The whitespace pass copies a non-whitespace character in front unchanged. */
  lemma CollapseCons(c: char, rest: string)
    requires !IsSpace(c)
    ensures CollapseSpaces([c] + rest) == [c] + CollapseSpaces(rest)
  {
    assert ([c] + rest)[1..] == rest;
  }

  /** The whitespace pass copies a stretch without whitespace unchanged. */
  lemma {:induction false} CollapseSpacesCopies(w: string, rest: string)
    requires forall i :: 0 <= i < |w| ==> !IsSpace(w[i])
    ensures CollapseSpaces(w + rest) == w + CollapseSpaces(rest)
    decreases |w|
  {
    if w == [] {
      assert w + rest == rest;
    } else {
      var tail := w[1..];
      assert w + rest == [w[0]] + (tail + rest) by {
        assert w == [w[0]] + tail;
      }
      CollapseCons(w[0], tail + rest);
      assert forall i :: 0 <= i < |tail| ==> !IsSpace(tail[i]) by {
        forall i | 0 <= i < |tail|
          ensures !IsSpace(tail[i])
        {
          assert tail[i] == w[i + 1];
        }
      }
      CollapseSpacesCopies(tail, rest);
      assert [w[0]] + (tail + CollapseSpaces(rest)) == w + CollapseSpaces(rest) by {
        assert w == [w[0]] + tail;
      }
    }
  }

  /** `trim` keeps text that neither starts nor ends with whitespace. */
  lemma TrimKeeps(s: string)
    requires s == [] || (!IsSpace(s[0]) && !IsSpace(s[|s| - 1]))
    ensures Trim(s) == s
  {
  }

  /** The four passes leave plain text as it is. */
  lemma PlainPassesThrough(w: string)
    requires Plain(w)
    ensures ReplaceTags(w, " ") == w && ReplaceNbsp(w) == w && CollapseSpaces(w) == w && Trim(w) == w
  {
    ReplaceTagsCopies(w, [], " ");
    ReplaceNbspCopies(w, []);
    CollapseSpacesCopies(w, []);
    assert w + [] == w;
    TrimKeeps(w);
  }

  /** A tag `<inner>` matches exactly up to its closing `>`. */
  lemma TagLengthOfTag(inner: string, rest: string)
    requires inner != [] && '>' !in inner
    ensures TagLength("<" + inner + ">" + rest) == |inner| + 2
    ensures ("<" + inner + ">" + rest)[|inner| + 2..] == rest
  {
    var s := "<" + inner + ">" + rest;
    var j := IndexOf(s[1..], '>');
    assert s[1..][|inner|] == '>';
    assert forall k :: 0 <= k < |inner| ==> s[1..][k] == inner[k];
    assert j == |inner|;
  }

  /** A single space in front of a word survives the whitespace pass as it is. */
  lemma CollapseSpaceBeforeWord(w: string)
    requires Plain(w) && w != []
    ensures CollapseSpaces(" " + w) == " " + w
  {
    var s := " " + w;
    assert s[0] == ' ' && s[1..] == w;
    assert !IsSpace(w[0]);
    assert DropSpaces(w) == w;
    assert DropSpaces(s) == w;
    assert CollapseSpaces(s) == " " + CollapseSpaces(w);
    CollapseSpacesCopies(w, []);
    assert w + [] == w;
  }

  /** Two plain words joined by one space hold no `&` and no doubled or outer whitespace. */
  lemma SpacedWordsShape(w1: string, w2: string)
    requires Plain(w1) && Plain(w2) && w1 != [] && w2 != []
    ensures '&' !in w1 + " " + w2
    ensures !IsSpace((w1 + " " + w2)[0]) && !IsSpace((w1 + " " + w2)[|w1 + " " + w2| - 1])
  {
    var m := w1 + " " + w2;
    assert m[0] == w1[0];
    assert m[|m| - 1] == w2[|w2| - 1];
  }

  /** The whitespace pass leaves `w1 + " " + w2`, for plain words, as it is. */
  lemma CollapseSpacedWords(w1: string, w2: string)
    requires Plain(w1) && Plain(w2) && w2 != []
    ensures CollapseSpaces(w1 + " " + w2) == w1 + " " + w2
  {
    assert w1 + " " + w2 == w1 + (" " + w2);
    CollapseSpacesCopies(w1, " " + w2);
    CollapseSpaceBeforeWord(w2);
  }

  /** The last three passes leave `w1 + " " + w2`, for plain words, as it is. */
  lemma SpacedWordsPassThrough(w1: string, w2: string)
    requires Plain(w1) && Plain(w2) && w1 != [] && w2 != []
    ensures ReplaceNbsp(w1 + " " + w2) == w1 + " " + w2
    ensures Trim(CollapseSpaces(w1 + " " + w2)) == w1 + " " + w2
  {
    var m := w1 + " " + w2;
    SpacedWordsShape(w1, w2);
    ReplaceNbspCopies(m, []);
    assert m + [] == m;
    CollapseSpacedWords(w1, w2);
    TrimKeeps(m);
  }

  /** A tag between two words reads as one space: `a<b>c` is `a c`, not `ac`. */
  lemma TagBetweenWords(w1: string, inner: string, w2: string)
    requires Plain(w1) && Plain(w2) && w1 != [] && w2 != []
    requires inner != [] && '>' !in inner
    ensures ExtractPlainText(Some(w1 + "<" + inner + ">" + w2)) == w1 + " " + w2
  {
    var tag := "<" + inner + ">" + w2;
    var h := w1 + "<" + inner + ">" + w2;
    assert h == w1 + tag;
    ReplaceTagsCopies(w1, tag, " ");
    TagLengthOfTag(inner, w2);
    ReplaceTagsCopies(w2, [], " ");
    assert w2 + [] == w2;
    assert ReplaceTags(tag, " ") == " " + w2;
    assert ReplaceTags(h, " ") == w1 + " " + w2;
    SpacedWordsPassThrough(w1, w2);
  }

  /** The entity in front of a word becomes one space. */
  lemma NbspBeforeWord(w: string)
    requires '&' !in w
    ensures ReplaceNbsp("&nbsp;" + w) == " " + w
  {
    assert NbspAt("&nbsp;" + w, 0);
    assert ("&nbsp;" + w)[6..] == w;
    ReplaceNbspCopies(w, []);
    assert w + [] == w;
  }

  /** The tag and entity passes turn `w1&nbsp;w2` into `w1 w2`. */
  lemma NbspBetweenWordsUnescaped(w1: string, w2: string)
    requires Plain(w1) && Plain(w2)
    ensures ReplaceNbsp(ReplaceTags(w1 + "&nbsp;" + w2, " ")) == w1 + " " + w2
  {
    var h := w1 + "&nbsp;" + w2;
    assert '<' !in h;
    ReplaceTagsCopies(h, [], " ");
    assert h + [] == h;
    assert h == w1 + ("&nbsp;" + w2);
    ReplaceNbspCopies(w1, "&nbsp;" + w2);
    NbspBeforeWord(w2);
  }

  /** `&nbsp;` between two words reads as one space. */
  lemma NbspBetweenWords(w1: string, w2: string)
    requires Plain(w1) && Plain(w2) && w1 != [] && w2 != []
    ensures ExtractPlainText(Some(w1 + "&nbsp;" + w2)) == w1 + " " + w2
  {
    var h := w1 + "&nbsp;" + w2;
    assert |h| >= 6;
    ExtractPasses(h);
    NbspBetweenWordsUnescaped(w1, w2);
    SpacedWordsPassThrough(w1, w2);
  }

  /** On non-empty input `extractPlainText` is the four passes in turn. */
  lemma ExtractPasses(h: string)
    requires h != ""
    ensures ExtractPlainText(Some(h)) == Trim(CollapseSpaces(ReplaceNbsp(ReplaceTags(h, " "))))
  {
  }

  /**
   `extractPlainText`: empty or missing input gives the empty string;
   otherwise the result is normalized whitespace holding no tag and no
   `&nbsp;`, and plain text comes back as it was.
   */
  function ExtractPlainText(html: Option<string>): (r: string)
    ensures html.None? || html.value == "" ==> r == ""
    ensures html.Some? && Plain(html.value) ==> r == html.value
    ensures Normalized(r)
    ensures TagFree(r)
    ensures NbspFree(r)
  {
    if html.None? || html.value == "" then ""
    else
      var collapsed := CollapseSpaces(ReplaceNbsp(ReplaceTags(html.value, " ")));
      PassesShape(html.value);
      TrimNormalizes(collapsed);
      TrimKeepsTagFree(collapsed);
      TrimKeepsNbspFree(collapsed);
      assert Plain(html.value) ==> Trim(collapsed) == html.value by {
        if Plain(html.value) {
          PlainPassesThrough(html.value);
        }
      }
      Trim(collapsed)
  }

  /** After the first three passes the text has single spaces only, no tag and no `&nbsp;`. */
  lemma PassesShape(h: string)
    ensures var c := CollapseSpaces(ReplaceNbsp(ReplaceTags(h, " "))); Collapsed(c) && TagFree(c) && NbspFree(c)
  {
    var stripped := ReplaceTags(h, " ");
    ReplaceTagsLeavesNoTag(h, " ");
    var unescaped := ReplaceNbsp(stripped);
    ReplaceNbspLeavesNone(stripped);
    ReplaceNbspKeepsTagFree(stripped);
    CollapseSpacesCollapses(unescaped);
    CollapseSpacesKeepsTagFree(unescaped);
    CollapseSpacesKeepsNbspFree(unescaped);
  }

  /** Trimming collapsed text leaves it normalized. */
  lemma TrimNormalizes(c: string)
    requires Collapsed(c)
    ensures Normalized(Trim(c))
  {
    var r := Trim(c);
    assert Collapsed(r) by {
      CollapsedSlice(c, LeadingSpaces(c), LeadingSpaces(c) + |r|, r);
    }
  }

  /** Trimming keeps text tag-free. */
  lemma TrimKeepsTagFree(c: string)
    requires TagFree(c)
    ensures TagFree(Trim(c))
  {
    var r := Trim(c);
    var a := LeadingSpaces(c);
    TagFreeSlice(c, a, a + |r|, r);
  }

  /** Trimming keeps text free of `&nbsp;`. */
  lemma TrimKeepsNbspFree(c: string)
    requires NbspFree(c)
    ensures NbspFree(Trim(c))
  {
    var r := Trim(c);
    var a := LeadingSpaces(c);
    NbspFreeSlice(c, a, a + |r|, r);
  }

  // ---------------------------------------------------------------------
  // Word count and minutes

  /** `s.split(' ')`: the pieces between single spaces, empty pieces included. */
  function SplitOnSpace(s: string): (parts: seq<string>)
    ensures |parts| >= 1
    ensures parts[0] == s[..IndexOf(s, ' ')]
    decreases |s|
  {
    var k := IndexOf(s, ' ');
    if k == |s| then [s] else [s[..k]] + SplitOnSpace(s[k + 1..])
  }

  /** The separator `split(' ')` cuts at. */
  predicate IsSeparator(c: char) {
    c == ' '
  }

  /** Splitting gives one piece more than there are separators. */
  lemma {:induction false} SplitOnSpaceLength(s: string)
    ensures |SplitOnSpace(s)| == Paging.Count(s, IsSeparator) + 1
    decreases |s|
  {
    var k := IndexOf(s, ' ');
    if k < |s| {
      assert SplitOnSpace(s) == [s[..k]] + SplitOnSpace(s[k + 1..]);
      SplitOnSpaceLength(s[k + 1..]);
      CountAroundSeparator(s, k);
    } else {
      assert s[..k] == s;
      assert Paging.Count(s[..k], IsSeparator) == 0;
    }
  }

  /** The separators of `s` are its first one, at `k`, and those after it. */
  lemma CountAroundSeparator(s: string, k: nat)
    requires k < |s| && s[k] == ' ' && forall j :: 0 <= j < k ==> s[j] != ' '
    ensures Paging.Count(s, IsSeparator) == Paging.Count(s[k + 1..], IsSeparator) + 1
  {
    var pre := s[..k];
    assert forall j :: 0 <= j < |pre| ==> !IsSeparator(pre[j]);
    Paging.CountAt(s, k, IsSeparator);
  }

  /** Text without a separator at either end or two in a row splits into non-empty pieces. */
  lemma {:induction false} SplitPiecesNonEmpty(s: string)
    requires Normalized(s) && s != []
    ensures forall k :: 0 <= k < |SplitOnSpace(s)| ==> SplitOnSpace(s)[k] != ""
    decreases |s|
  {
    var k := IndexOf(s, ' ');
    assert k >= 1 && s[..k] != "";
    if k < |s| {
      var t := s[k + 1..];
      assert k < |s| - 1;
      assert IsSpace(s[k]) && !SpacePair(s, k);
      assert t[0] == s[k + 1] && t[|t| - 1] == s[|s| - 1];
      CollapsedSlice(s, k + 1, |s|, t);
      SplitPiecesNonEmpty(t);
    }
  }

  /**
   `text.split(' ').filter(Boolean).length`. Normalized text that is not
   empty has exactly one word more than it has spaces.
   */
  function WordCount(text: string): (n: nat)
    ensures text == "" ==> n == 0
    ensures n <= Paging.Count(text, IsSeparator) + 1
    ensures Normalized(text) && text != "" ==> n == Paging.Count(text, IsSeparator) + 1
  {
    var parts := SplitOnSpace(text);
    SplitOnSpaceLength(text);
    assert text == "" ==> parts == [""];
    assert Normalized(text) && text != "" ==> |parts| == Paging.Count(parts, (w: string) => w != "") by {
      if Normalized(text) && text != "" {
        SplitPiecesNonEmpty(text);
        Paging.CountAll(parts, (w: string) => w != "");
      }
    }
    Paging.Count(parts, (w: string) => w != "")
  }

  /** Normalized text that is not empty holds at least one word. */
  lemma NonEmptyTextHasWords(text: string)
    requires Normalized(text) && text != []
    ensures WordCount(text) >= 1
  {
    var parts := SplitOnSpace(text);
    assert text[0] != ' ';
    assert IndexOf(text, ' ') >= 1;
    assert parts[0] != "";
  }

  const DefaultWordsPerMinute: int := 200
  const MinWordsPerMinute: int := 100

  /** `Math.max(100, wordsPerMinute)`. */
  function Divisor(wordsPerMinute: int): (d: int)
    ensures d >= MinWordsPerMinute && d >= wordsPerMinute
    ensures d == MinWordsPerMinute || d == wordsPerMinute
  {
    if wordsPerMinute < MinWordsPerMinute then MinWordsPerMinute else wordsPerMinute
  }

  lemma MulLeMul(x: int, y: int, d: int)
    requires x <= y && d >= 0
    ensures x * d <= y * d
  {
    assert y * d - x * d == (y - x) * d;
  }

  /** `Math.ceil(a / d)` for a non-negative `a`: the least `q` with `a <= q * d`. */
  function CeilDiv(a: nat, d: int): (q: nat)
    requires d > 0
    ensures (q - 1) * d < a <= q * d
  {
    var q := (a + d - 1) / d;
    var m := (a + d - 1) % d;
    assert a + d - 1 == q * d + m;
    assert (q - 1) * d == q * d - d;
    q
  }

  /** `Math.max(1, Math.ceil(words / Math.max(100, wordsPerMinute)))`. */
  function MinutesForWords(words: nat, wordsPerMinute: int): (m: nat)
    ensures m >= 1
    ensures words == 0 ==> m == 1
    ensures words >= 1 ==> (m - 1) * Divisor(wordsPerMinute) < words <= m * Divisor(wordsPerMinute)
    ensures words >= 1 ==> m <= words
  {
    var d := Divisor(wordsPerMinute);
    var c := CeilDiv(words, d);
    assert words >= 1 ==> c >= 1 by {
      if words >= 1 && c < 1 {
        MulLeMul(c, 0, d);
      }
    }
    assert words >= 1 ==> c <= words by {
      if words >= 1 {
        MulLeMul(1, d, c - 1);
      }
    }
    if c < 1 then 1 else c
  }

  /** More words never read faster. */
  lemma MinutesMonotone(w1: nat, w2: nat, wordsPerMinute: int)
    requires w1 <= w2
    ensures MinutesForWords(w1, wordsPerMinute) <= MinutesForWords(w2, wordsPerMinute)
  {
    var d := Divisor(wordsPerMinute);
    var m1, m2 := MinutesForWords(w1, wordsPerMinute), MinutesForWords(w2, wordsPerMinute);
    if w1 >= 1 && m2 < m1 {
      MulLeMul(m2, m1 - 1, d);
    }
  }

  /**
   `computeReadTimeMinutesFromHtml`: 0 exactly when the text is empty, and
   otherwise the words divided by the speed (at least 100), rounded up,
   which lies between 1 and the word count.
   */
  function ReadTimeMinutes(html: Option<string>, wordsPerMinute: int): (m: nat)
    ensures m == 0 <==> ExtractPlainText(html) == ""
    ensures ExtractPlainText(html) != "" ==> MinutesForWords(WordCount(ExtractPlainText(html)), wordsPerMinute) == m
    ensures ExtractPlainText(html) != "" ==> 1 <= m <= WordCount(ExtractPlainText(html))
  {
    var text := ExtractPlainText(html);
    if text == "" then 0
    else
      var words := WordCount(text);
      NonEmptyTextHasWords(text);
      MinutesForWords(words, wordsPerMinute)
  }

  /** The calculator as the controllers call it, with the default speed of 200 words a minute. */
  function DefaultReadTime(html: string): (m: nat)
    ensures m == 0 <==> ExtractPlainText(Some(html)) == ""
    ensures ExtractPlainText(Some(html)) != "" ==> (m - 1) * 200 < WordCount(ExtractPlainText(Some(html))) <= m * 200
  {
    ReadTimeMinutes(Some(html), DefaultWordsPerMinute)
  }
}

=== FILE: search.dfy ===
/**
 `search`: full-text search over published posts, ordered by relevance.
 Text matching and the relevance score are parameters: `textMatch(p, q)`
 says whether `$text: { $search: q }` selects `p`, and `score(p, q)` is its
 `textScore`.
 */
module Search {
  import opened Domain
  import opened Sorting
  import opened PostOrder
  import Paging

  /** The filter both the data query and the count use. */
  predicate Hit(textMatch: (Post, string) -> bool, q: string, p: Post) {
    IsPublished(p) && textMatch(p, q)
  }

  function ScoreKey(score: (Post, string) -> int, q: string): Post -> Key {
    p => Key(score(p, q), 0, 0)
  }

  function Hits(store: seq<Post>, textMatch: (Post, string) -> bool, q: string): (r: seq<Post>)
    ensures |r| == Paging.Count(store, p => Hit(textMatch, q, p))
    ensures forall k :: 0 <= k < |r| ==> r[k] in store && Hit(textMatch, q, r[k])
    ensures forall j :: 0 <= j < |store| && Hit(textMatch, q, store[j]) ==> store[j] in r
  {
    Paging.CountIsFilterLength(store, p => Hit(textMatch, q, p));
    Paging.Filter(store, p => Hit(textMatch, q, p))
  }

  /**
   `search`. A missing or empty `q` fails validation before any query;
   otherwise one page of hits by descending score, and `total` counts
   exactly the hits.
   */
  function Search(store: seq<Post>, q: Option<string>, page: Option<int>, limit: Option<int>,
                  textMatch: (Post, string) -> bool, score: (Post, string) -> int): (r: Result<Paging.Listing<Post>>)
    ensures r.Err? <==> q.None? || q.value == ""
    ensures r.Err? ==> r.error == ValidationError
    ensures r.Ok? ==> r.value.page >= 1 && 1 <= r.value.limit <= 50 && |r.value.data| <= r.value.limit
    ensures r.Ok? ==> r.value.page == Paging.ClampPage(page) && r.value.limit == Paging.ClampLimit(limit, 10, 50)
    ensures r.Ok? ==> page.None? ==> r.value.page == 1
    ensures r.Ok? ==> page.Some? && page.value >= 1 ==> r.value.page == page.value
    ensures r.Ok? ==> limit.None? ==> r.value.limit == 10
    ensures r.Ok? ==> limit.Some? && 1 <= limit.value <= 50 ==> r.value.limit == limit.value
    ensures r.Ok? ==> Paging.IsPageOf(r.value.data, SortDesc(Hits(store, textMatch, q.value), ScoreKey(score, q.value)), r.value.page, r.value.limit)
    ensures r.Ok? ==> forall k :: 0 <= k < |r.value.data| ==> r.value.data[k] in store && Hit(textMatch, q.value, r.value.data[k])
    ensures r.Ok? ==> forall i, k :: 0 <= i < k < |r.value.data| ==> score(r.value.data[i], q.value) >= score(r.value.data[k], q.value)
    ensures r.Ok? ==> r.value.total == Paging.Count(store, p => Hit(textMatch, q.value, p))
    ensures r.Ok? ==> |r.value.data| <= r.value.total
  {
    if q.None? || q.value == "" then Err(ValidationError)
    else
      var pg := Paging.ClampPage(page);
      var lim := Paging.ClampLimit(limit, 10, 50);
      var hits := Hits(store, textMatch, q.value);
      var data := Paging.SortedPage(hits, ScoreKey(score, q.value), pg, lim);
      Ok(Paging.Listing(data, pg, lim, |hits|))
  }

  /** Paging through the results reaches every published post the search matches. */
  lemma SearchReachesEveryHit(store: seq<Post>, q: string, limit: Option<int>,
                              textMatch: (Post, string) -> bool, score: (Post, string) -> int, j: nat)
    requires q != "" && j < |store| && Hit(textMatch, q, store[j])
    ensures exists page :: page >= 1 && store[j] in Search(store, Some(q), Some(page), limit, textMatch, score).value.data
  {
    var lim := Paging.ClampLimit(limit, 10, 50);
    var hits := Hits(store, textMatch, q);
    Paging.EveryItemOnSomePage(hits, ScoreKey(score, q), lim, store[j]);
    var page :| page >= 1 && store[j] in Paging.SortedPage(hits, ScoreKey(score, q), page, lim);
    assert Search(store, Some(q), Some(page), limit, textMatch, score).value.data == Paging.SortedPage(hits, ScoreKey(score, q), page, lim);
  }
}

=== FILE: slugs.dfy ===
/**
 Slug allocation by suffix probing, as `createPost` and `updatePost` do it:
 the candidates are `base`, `base-1`, `base-2`, … and the first one that no
 other post holds wins. `slugify` itself is an oracle; the probe starts from
 its output.
 */
module Slugs {
  import opened Domain

  function DigitChar(d: nat): (c: char)
    requires d < 10
  {
    "0123456789"[d]
  }

  /** The decimal numeral JavaScript's template literal writes for `n`. */
  function NatToString(n: nat): (s: string)
    ensures |s| >= 1
    ensures n < 10 <==> |s| == 1
    ensures s[|s| - 1] == DigitChar(n % 10)
    decreases n
  {
    if n < 10 then [DigitChar(n)] else NatToString(n / 10) + [DigitChar(n % 10)]
  }

  /** Different numbers give different numerals, so the candidates never repeat. */
  lemma {:induction false} NatToStringInjective(a: nat, b: nat)
    requires NatToString(a) == NatToString(b)
    ensures a == b
    decreases a
  {
    var sa, sb := NatToString(a), NatToString(b);
    assert DigitChar(a % 10) == DigitChar(b % 10);
    assert a % 10 == b % 10;
    if a >= 10 {
      assert b >= 10;
      assert NatToString(a / 10) == sa[..|sa| - 1] == sb[..|sb| - 1] == NatToString(b / 10);
      NatToStringInjective(a / 10, b / 10);
    }
  }

  /** The probe's n-th candidate: `${baseSlug}-${n}`. */
  function Candidate(base: string, n: nat): (s: string)
    ensures |s| > |base| + 1
    ensures s[..|base|] == base && s[|base|] == '-'
  {
    base + "-" + NatToString(n)
  }

  lemma CandidatesDistinct(base: string, a: nat, b: nat)
    requires a != b
    ensures Candidate(base, a) != Candidate(base, b)
    ensures Candidate(base, a) != base
  {
    if Candidate(base, a) == Candidate(base, b) {
      assert NatToString(a) == Candidate(base, a)[|base| + 1..];
      assert NatToString(b) == Candidate(base, b)[|base| + 1..];
      NatToStringInjective(a, b);
    }
  }

  /**
   `BlogPost.exists({ slug })`, or `exists({ slug, _id: { $ne: id } })` when
   `exclude` names the post being updated.
   */
  predicate Taken(store: seq<Post>, slug: string, exclude: Option<Id>) {
    exists j :: 0 <= j < |store| && store[j].slug == slug && (exclude.None? || store[j].id != exclude.value)
  }

  /** The post being updated never blocks its own slug. */
  lemma OwnSlugNotTaken(store: seq<Post>, id: Id, slug: string)
    requires forall j :: 0 <= j < |store| && store[j].slug == slug ==> store[j].id == id
    ensures !Taken(store, slug, Some(id))
  {
  }

  /** The slugs of the posts that count as holders. */
  function HeldSlugs(store: seq<Post>, exclude: Option<Id>): (held: set<string>)
    ensures forall slug :: slug in held <==> Taken(store, slug, exclude)
  {
    if store == [] then {}
    else
      var rest := HeldSlugs(store[1..], exclude);
      assert forall slug :: Taken(store, slug, exclude) <==>
        (Taken(store[1..], slug, exclude) || (store[0].slug == slug && (exclude.None? || store[0].id != exclude.value))) by {
        forall slug
          ensures Taken(store, slug, exclude) ==>
            (Taken(store[1..], slug, exclude) || (store[0].slug == slug && (exclude.None? || store[0].id != exclude.value)))
        {
          if Taken(store, slug, exclude) {
            var j :| 0 <= j < |store| && store[j].slug == slug && (exclude.None? || store[j].id != exclude.value);
            if j > 0 {
              assert store[1..][j - 1] == store[j];
            }
          }
        }
        forall slug | Taken(store[1..], slug, exclude)
          ensures Taken(store, slug, exclude)
        {
          var j :| 0 <= j < |store[1..]| && store[1..][j].slug == slug && (exclude.None? || store[1..][j].id != exclude.value);
          assert store[j + 1] == store[1..][j];
        }
      }
      if exclude.None? || store[0].id != exclude.value then rest + {store[0].slug} else rest
  }

  /**
   The probe loop. The result is `base` when no other post holds it, and
   otherwise `base-n` for the least `n >= 1` that no other post holds. The
   loop terminates because every rejected candidate is a distinct slug held
   by some post, and the store is finite.
   */
  method AllocateSlug(store: seq<Post>, base: string, exclude: Option<Id>) returns (slug: string)
    ensures FirstFree(store, base, exclude, slug)
    ensures !Taken(store, slug, exclude)
    ensures !Taken(store, base, exclude) ==> slug == base
    ensures Taken(store, base, exclude) ==>
      exists n: nat :: n >= 1 && slug == Candidate(base, n) &&
        forall m: nat :: 1 <= m < n ==> Taken(store, Candidate(base, m), exclude)
  {
    var held := HeldSlugs(store, exclude);
    slug := base;
    var n: nat := 1;
    ghost var rejected: set<string> := {};
    while Taken(store, slug, exclude)
      invariant slug == if n == 1 then base else Candidate(base, n - 1)
      invariant n > 1 ==> Taken(store, base, exclude)
      invariant forall m: nat :: 1 <= m < n - 1 ==> Taken(store, Candidate(base, m), exclude)
      invariant rejected <= held
      invariant forall m: nat :: 1 <= m < n ==> Candidate(base, m) !in rejected || m < n - 1
      invariant slug !in rejected
      invariant forall m: nat :: 1 <= m < n - 1 ==> Candidate(base, m) in rejected
      invariant n > 1 ==> base in rejected
      invariant forall x :: x in rejected ==> x == base || exists m: nat :: 1 <= m < n - 1 && x == Candidate(base, m)
      decreases held - rejected
    {
      rejected := rejected + {slug};
      slug := Candidate(base, n);
      CandidatesDistinctFrom(base, n);
      n := n + 1;
    }
    if Taken(store, base, exclude) {
      assert n >= 2;
      assert slug == Candidate(base, n - 1);
    }
  }

  lemma CandidatesDistinctFrom(base: string, n: nat)
    ensures Candidate(base, n) != base
    ensures forall m: nat :: m != n ==> Candidate(base, m) != Candidate(base, n)
  {
    CandidatesDistinct(base, n, n + 1);
    forall m: nat | m != n
      ensures Candidate(base, m) != Candidate(base, n)
    {
      CandidatesDistinct(base, m, n);
    }
  }

  /** `slug` is what the probe must answer: `base` when free, else `base-n` for the least free `n >= 1`. */
  ghost predicate FirstFree(store: seq<Post>, base: string, exclude: Option<Id>, slug: string) {
    && !Taken(store, slug, exclude)
    && (!Taken(store, base, exclude) ==> slug == base)
    && (Taken(store, base, exclude) ==>
         exists n: nat :: n >= 1 && slug == Candidate(base, n) &&
           forall m: nat :: 1 <= m < n ==> Taken(store, Candidate(base, m), exclude))
  }

  /** The probe is deterministic: one store, base and exclusion admit exactly one answer. */
  lemma FirstFreeUnique(store: seq<Post>, base: string, exclude: Option<Id>, a: string, b: string)
    requires FirstFree(store, base, exclude, a) && FirstFree(store, base, exclude, b)
    ensures a == b
  {
    if Taken(store, base, exclude) {
      var na: nat :| na >= 1 && a == Candidate(base, na) &&
        forall m: nat :: 1 <= m < na ==> Taken(store, Candidate(base, m), exclude);
      var nb: nat :| nb >= 1 && b == Candidate(base, nb) &&
        forall m: nat :: 1 <= m < nb ==> Taken(store, Candidate(base, m), exclude);
    }
  }

  /** With `base` held and `base-1` free, the probe answers `base-1`. */
  lemma SecondCandidate(store: seq<Post>, base: string, exclude: Option<Id>, slug: string)
    requires FirstFree(store, base, exclude, slug)
    requires Taken(store, base, exclude) && !Taken(store, Candidate(base, 1), exclude)
    ensures slug == base + "-1"
  {
    assert NatToString(1) == "1";
    assert FirstFree(store, base, exclude, Candidate(base, 1));
    FirstFreeUnique(store, base, exclude, slug, Candidate(base, 1));
  }
}

=== FILE: sorting.dfy ===
/**
 Descending sorts as the database applies them (`sort({ field: -1 })`,
 compound sorts, and the aggregation's `$sort`), keyed by a triple of
 integers compared lexicographically.

 The database gives no order among equal keys; the model picks the stable
 order, and every contract states only that the result is sorted and is a
 permutation of the input.
 */
module Sorting {

  /** A sort key; the first component decides, then the second, then the third. */
  datatype Key = Key(major: int, minor: int, least: int)

  /** `a` may come before `b` in a descending sort. */
  predicate KeyGe(a: Key, b: Key) {
    || a.major > b.major
    || (a.major == b.major && a.minor > b.minor)
    || (a.major == b.major && a.minor == b.minor && a.least >= b.least)
  }

  lemma KeyGeTotal(a: Key, b: Key)
    ensures KeyGe(a, b) || KeyGe(b, a)
  {
  }

  lemma KeyGeTransitive(a: Key, b: Key, c: Key)
    requires KeyGe(a, b) && KeyGe(b, c)
    ensures KeyGe(a, c)
  {
  }

  ghost predicate SortedDesc<T>(s: seq<T>, key: T -> Key) {
    forall i, j :: 0 <= i < j < |s| ==> KeyGe(key(s[i]), key(s[j]))
  }

  /** Inserts `x` before the first element whose key it reaches. */
  function Insert<T(==)>(x: T, s: seq<T>, key: T -> Key): (r: seq<T>)
    requires SortedDesc(s, key)
    ensures SortedDesc(r, key)
    ensures multiset(r) == multiset(s) + multiset{x}
    ensures |r| == |s| + 1
  {
    if s == [] then [x]
    else if KeyGe(key(x), key(s[0])) then
      HeadDominates(s, key);
      ConsSorted(x, s, key);
      [x] + s
    else
      var rest := Insert(x, s[1..], key);
      assert s == [s[0]] + s[1..];
      InsertedTailDominated(x, s, rest, key);
      ConsSorted(s[0], rest, key);
      [s[0]] + rest
  }

  /** The head of a sorted sequence reaches every later key. */
  lemma HeadDominates<T>(s: seq<T>, key: T -> Key)
    requires SortedDesc(s, key) && s != []
    ensures forall j :: 0 <= j < |s| ==> KeyGe(key(s[0]), key(s[j]))
  {
  }

  /** Putting in front an element that reaches every key keeps a sequence sorted. */
  lemma ConsSorted<T>(h: T, s: seq<T>, key: T -> Key)
    requires SortedDesc(s, key)
    requires forall j :: 0 <= j < |s| ==> KeyGe(key(h), key(s[j]))
    ensures SortedDesc([h] + s, key)
  {
    var r := [h] + s;
    forall i, j | 0 <= i < j < |r|
      ensures KeyGe(key(r[i]), key(r[j]))
    {
      assert r[j] == s[j - 1];
      if i > 0 {
        assert r[i] == s[i - 1];
      }
    }
  }

  /** When `x` ranks below the head, everything inserted after the head ranks no higher than the head. */
  lemma InsertedTailDominated<T>(x: T, s: seq<T>, rest: seq<T>, key: T -> Key)
    requires SortedDesc(s, key) && s != [] && !KeyGe(key(x), key(s[0]))
    requires multiset(rest) == multiset(s[1..]) + multiset{x}
    ensures forall k :: 0 <= k < |rest| ==> KeyGe(key(s[0]), key(rest[k]))
  {
    forall k | 0 <= k < |rest|
      ensures KeyGe(key(s[0]), key(rest[k]))
    {
      assert rest[k] in multiset(rest);
      if rest[k] == x {
        KeyGeTotal(key(x), key(s[0]));
      } else {
        assert rest[k] in multiset(s[1..]);
        assert rest[k] in s[1..];
        var j :| 0 <= j < |s[1..]| && s[1..][j] == rest[k];
        assert s[j + 1] == rest[k];
      }
    }
  }

  /** A stable insertion sort, descending by `key`. */
  function SortDesc<T(==)>(s: seq<T>, key: T -> Key): (r: seq<T>)
    ensures SortedDesc(r, key)
    ensures multiset(r) == multiset(s)
    ensures |r| == |s|
  {
    if s == [] then []
    else
      assert s == [s[0]] + s[1..];
      Insert(s[0], SortDesc(s[1..], key), key)
  }

  /** In a sorted sequence every element of a prefix dominates every element after it. */
  lemma PrefixDominatesRest<T>(t: seq<T>, key: T -> Key, n: nat, x: T)
    requires SortedDesc(t, key) && n <= |t|
    requires x in multiset(t) - multiset(t[..n])
    ensures forall i :: 0 <= i < n ==> KeyGe(key(t[i]), key(x))
  {
    assert t == t[..n] + t[n..];
    assert multiset(t) == multiset(t[..n]) + multiset(t[n..]);
    assert x in multiset(t[n..]);
    assert x in t[n..];
    var j :| 0 <= j < |t[n..]| && t[n..][j] == x;
    assert t[n + j] == x;
  }

  /**
   The first `k` elements of the descending order (`sort(...).limit(k)`):
   every element left out is dominated by every element kept.
   */
  function TopBy<T(==)>(s: seq<T>, key: T -> Key, k: nat): (r: seq<T>)
    ensures |r| == if |s| < k then |s| else k
    ensures SortedDesc(r, key)
    ensures multiset(r) <= multiset(s)
    ensures forall x, i :: x in multiset(s) - multiset(r) && 0 <= i < |r| ==> KeyGe(key(r[i]), key(x))
  {
    var t := SortDesc(s, key);
    var n := if |t| < k then |t| else k;
    SortedPrefix(t, key, n);
    t[..n]
  }

  /** A prefix of a sorted sequence is sorted, is part of it, and dominates the rest. */
  lemma SortedPrefix<T>(t: seq<T>, key: T -> Key, n: nat)
    requires SortedDesc(t, key) && n <= |t|
    ensures SortedDesc(t[..n], key)
    ensures multiset(t[..n]) <= multiset(t)
    ensures forall x, i :: x in multiset(t) - multiset(t[..n]) && 0 <= i < n ==> KeyGe(key(t[..n][i]), key(x))
  {
    assert t == t[..n] + t[n..];
    assert multiset(t) == multiset(t[..n]) + multiset(t[n..]);
    forall x | x in multiset(t) - multiset(t[..n])
      ensures forall i :: 0 <= i < n ==> KeyGe(key(t[..n][i]), key(x))
    {
      PrefixDominatesRest(t, key, n, x);
    }
  }

  /** Every element `TopBy` keeps comes from the input. */
  lemma TopByMembers<T>(s: seq<T>, key: T -> Key, k: nat)
    ensures forall i :: 0 <= i < |TopBy(s, key, k)| ==> TopBy(s, key, k)[i] in s
  {
    var r := TopBy(s, key, k);
    forall i | 0 <= i < |r|
      ensures r[i] in s
    {
      assert r[i] in multiset(r);
    }
  }

  /** An input element `TopBy` leaves out ranks no higher than any element it keeps. */
  lemma TopByLeftOut<T>(s: seq<T>, key: T -> Key, k: nat, x: T, i: nat)
    requires x in s && x !in TopBy(s, key, k) && i < |TopBy(s, key, k)|
    ensures KeyGe(key(TopBy(s, key, k)[i]), key(x))
  {
    var r := TopBy(s, key, k);
    assert x in multiset(s);
    assert x !in multiset(r);
    assert x in multiset(s) - multiset(r);
  }
}

=== FILE: user_posts.dfy ===
/**
 `listUserPosts`: one author's published posts, newest first, paged, with
 `total` counting the same filter.
 */
module UserPosts {
  import opened Domain
  import opened Sorting
  import opened PostOrder
  import Paging

  /** The filter of the data query and of the count. */
  predicate ByUser(userId: Id, p: Post) {
    IsPublished(p) && p.author == userId
  }

  function UserMatches(store: seq<Post>, userId: Id): (r: seq<Post>)
    ensures |r| == Paging.Count(store, p => ByUser(userId, p))
    ensures forall k :: 0 <= k < |r| ==> r[k] in store && ByUser(userId, r[k])
    ensures forall j :: 0 <= j < |store| && ByUser(userId, store[j]) ==> store[j] in r
  {
    Paging.CountIsFilterLength(store, p => ByUser(userId, p));
    Paging.Filter(store, p => ByUser(userId, p))
  }

  /** `listUserPosts`, with `page` and `limit` already read as integers. */
  function ListUserPosts(store: seq<Post>, userId: Id, page: Option<int>, limit: Option<int>): (r: Paging.Listing<Post>)
    ensures r.page >= 1 && 1 <= r.limit <= 50 && |r.data| <= r.limit
    ensures r.page == Paging.ClampPage(page) && r.limit == Paging.ClampLimit(limit, 10, 50)
    ensures page.None? ==> r.page == 1
    ensures page.Some? && page.value >= 1 ==> r.page == page.value
    ensures limit.None? ==> r.limit == 10
    ensures limit.Some? && 1 <= limit.value <= 50 ==> r.limit == limit.value
    ensures Paging.IsPageOf(r.data, SortDesc(UserMatches(store, userId), DateKey), r.page, r.limit)
    ensures forall k :: 0 <= k < |r.data| ==> r.data[k] in store && ByUser(userId, r.data[k])
    ensures SortedDesc(r.data, DateKey)
    ensures r.total == Paging.Count(store, p => ByUser(userId, p))
    ensures |r.data| <= r.total
  {
    var pg := Paging.ClampPage(page);
    var lim := Paging.ClampLimit(limit, 10, 50);
    var matches := UserMatches(store, userId);
    Paging.Listing(Paging.SortedPage(matches, DateKey, pg, lim), pg, lim, |matches|)
  }

  /** `total` is the same whatever page is asked for and however large it is. */
  lemma TotalIgnoresPaging(store: seq<Post>, userId: Id, p1: Option<int>, l1: Option<int>, p2: Option<int>, l2: Option<int>)
    ensures ListUserPosts(store, userId, p1, l1).total == ListUserPosts(store, userId, p2, l2).total
  {
  }

  /** Paging through `listUserPosts` reaches every published post by the user. */
  lemma ListUserPostsReachesEvery(store: seq<Post>, userId: Id, limit: Option<int>, j: nat)
    requires j < |store| && ByUser(userId, store[j])
    ensures exists page :: page >= 1 && store[j] in ListUserPosts(store, userId, Some(page), limit).data
  {
    var lim := Paging.ClampLimit(limit, 10, 50);
    var matches := UserMatches(store, userId);
    Paging.EveryItemOnSomePage(matches, DateKey, lim, store[j]);
    var page :| page >= 1 && store[j] in Paging.SortedPage(matches, DateKey, page, lim);
    assert ListUserPosts(store, userId, Some(page), limit).data == Paging.SortedPage(matches, DateKey, page, lim);
  }
}
